=== FILE: README.md ===
# Amazon price-drop notifier: change detection and daily digest

This project models the core of `app.py`, a bot that scrapes Amazon search
results, finds new products and price drops, and reports them on Telegram.
The model covers:

- the per-product classifier inside `process_once`;
- the history it keeps (`data.json`);
- the daily ledger of changes (`daily.json`);
- the once-a-day digest built from that ledger;
- the small helpers around them: search URLs, product identifiers, price-text
  clean-up and the search-term setting.

Everything is pure functions over immutable maps and sequences. Clock readings,
Telegram, the HTML fetch, `quote_plus` and Python's float formatting are
parameters:

- `now`, `today` and `hour` are the clock readings.
- A `Sink` says whether a photo or text send succeeds.
- `fetch` gives the records a result page yields.
- `quote` stands for `quote_plus`.
- `show` stands for `str()` of a price.

Modules, leaf first:

- `Options`, `Prices`, `Text`: the optional value, prices (an int or a float,
  compared exactly as reals), and Python's string operations the program uses:
  `strip`, `split`, `join`, `replace` and `str()` of a natural number.
- `Records`: scraped record, history entry, change event, Telegram call, sink.
- `Ledger`: append to today's list, and drain it.
- `Detector`: one record's classification (`Step`), the fold over a batch
  (`ProcessRecords`), and the properties that relate runs to each other.
- `Digest`: the summary lines and the hourly digest check.
- `Scrape`: `obtener_urls_busqueda`, `extraer_asin`, the string part of
  `parse_price`, and the tag setting.
- `Store`: the missing-or-corrupt-file-reads-as-default rule.
- `Cycle`: one pass of the main loop and a run of passes.

Behaviour of the code worth noting:

- The previous price is the `precio` key, or else the legacy `price` key when
  that is truthy. A legacy price of 0 counts as none. A known product with no
  previous price is never a drop.
- The overflow note reads `... y N más.`.
- Writes to the JSON files are plain overwrites, not atomic.
- No per-record error isolation exists inside `process_once`. An exception
  aborts the whole pass and is only caught by the main loop.
- `extraer_asin` checks `len(asin) > 5`, but that check never decides
  anything. Its fallback loop tries `data-asin` again first, so any non-empty
  `data-asin` is returned whatever its length. `Scrape.ExtractAsin` models the
  code as written, and its contract states this behaviour.

## Model

| member | source | states |
|---|---|---|
| Detector.PreviousPrice | app.py:310 | the previous price is `precio` when set; otherwise it is the legacy `price` exactly when that is present and non-zero; otherwise there is none |
| Detector.Deliver | app.py:296-303 | with a non-empty image the photo is tried first with the message as caption. A text send of the same message follows exactly when there is no image or the photo failed. With no image the only attempt is a text send. Every attempt but the last failed, and the reported result is that of the last attempt |
| Detector.DeliverUnique | app.py:296-303 | any sequence of attempts with that shape (photo first when there is an image, then only the text, no repeats, stopping at the first success or after the text) is exactly the one `Deliver` produces |
| Detector.Step | app.py:278-332 | a record without a price changes nothing. An unknown product is stored with the record's title, price, link and time, and yields one `new` change. A strict drop below the previous price rewrites only `precio` and `last_seen` and yields one `drop` change whose old price is the previous price. Anything else (equal or higher price, or no previous price) only refreshes `last_seen`. Other products are never touched. Each change is notified by one or two Telegram calls, and no call is made without a change |
| Detector.ProcessRecords | app.py:272-335 | `any_changes` is true exactly when some change was produced. There are no more changes than records, each of kind `new` or `drop`. The batch makes between one and two Telegram calls per change. The ledger ends as today's old list followed by the changes, in order |
| Detector.ProcessNames | app.py:286-332 | every change names a product that some record of the batch carried with a price |
| Detector.ProcessNewProducts | app.py:289-307 | the `new` changes of a batch name exactly the priced products of the batch that were not in the history before it, each once |
| Detector.StepFrame | app.py:289-332 | one record adds its product to the history exactly when it has a price and leaves every other product's entry unchanged |
| Detector.ProcessFrame | app.py:278-332 | after a batch the history holds the old products plus exactly the priced products seen, and every product not seen is unchanged |
| Detector.StepNotRaised | app.py:310-332 | one record never raises the previous price of a known product, and a missing previous price stays missing |
| Detector.ProcessNotRaised | app.py:305-332 | a whole batch never raises the previous price of any product already in the history |
| Detector.StepIdempotent | app.py:305-332 | processing the same record again right after, at any time and with any sink, yields no change and no notification |
| Detector.ProcessDominatesAll | app.py:305-332 | after a batch, no record of it is cheaper than the price now stored for its product |
| Detector.ProcessQuiet | app.py:310-332 | a batch whose records are all no cheaper than the stored prices produces no change and no notification |
| Detector.ProcessIdempotent | app.py:272-335 | re-running a batch over the same records finds nothing: no change, no notification, `any_changes` false, ledger untouched |
| Detector.ProcessIgnoresDelivery | app.py:296-329 | history, changes and ledger are the same whatever Telegram answered and however prices are rendered |
| Ledger.Append | app.py:247-257 | today's list becomes the old list (or empty) followed by the change. The date is added if missing, and every other date is unchanged |
| Ledger.AppendAll | app.py:247-257 | appending several changes leaves today's list as the old list followed by them, in order, with other dates unchanged |
| Ledger.AppendAllOneByOne | app.py:247-257 | appending several changes is one append per change, in order |
| Ledger.AppendAllConcat | app.py:247-257 | two successive runs of appends equal one run of their concatenation |
| Ledger.Drain | app.py:259-267 | returns today's list (or empty) and leaves it empty. It resets the list only when the date is already a key, never removes a date and changes no other date |
| Ledger.DrainTwice | app.py:259-267 | a second drain on the same date returns nothing and changes nothing |
| Ledger.AppendThenDrain | app.py:247-267 | a drain after appends returns the earlier list followed by the appended changes |
| Digest.RenderChange | app.py:354-358 | a change is rendered as a new product exactly when its kind is `new`. Every other kind is rendered as a drop |
| Digest.RenderAll | app.py:354-358 | one rendered entry per change, in ledger order |
| Digest.SummaryLines | app.py:352-361 | the lines are the header, a blank line, the first min(n, 30) changes in ledger order, and then the note `... y N más.` with N = n - 30. The last line is an overflow note exactly when n > 30 |
| Digest.DigestIfTime | app.py:337-364 | nothing happens unless the hour is the summary hour and today's sentinel is absent. Otherwise today is drained and its sentinel added, even when there were no changes. A summary of exactly today's drained changes is sent exactly when there were some |
| Digest.DigestShape | app.py:346-364 | a sent summary starts with the dated header. Afterwards today's list is empty, including changes past the cap, and today is marked |
| Digest.DigestAtMostOnce | app.py:340-350 | after a check at the summary hour, every later check on that date does nothing, whatever the hour or the ledger |
| Scrape.SearchUrls | app.py:163-166 | one URL per page 1..n in order, each the search base, the quoted term, `&page=` and the page number; none when n is not positive |
| Scrape.SearchUrlsPages | app.py:163-166 | each URL ends with its page number in decimal, which reads back as that page, so the URLs of one term are pairwise distinct |
| Scrape.FirstPresent | app.py:173-175 | returns the first listed attribute with a non-empty value, and none exactly when no listed attribute has one |
| Scrape.ExtractAsin | app.py:168-176 | a non-empty `data-asin` is returned whatever its length. Otherwise a non-empty `data-asin-bfk` is returned. There is none exactly when both are missing or empty |
| Scrape.ReplaceChar | app.py:182-184 | replacing a character by a text that does not contain it leaves no occurrence of it |
| Scrape.ReplaceCharAbsent | app.py:182-184 | replacing a character that does not occur leaves the text unchanged |
| Scrape.ReplaceCharCounts | app.py:182-184 | every character other than the replaced one and those of its replacement occurs as often after the replacement as before |
| Scrape.KeepNumeric | app.py:186 | keeps only digits and dots, never lengthening the text |
| Scrape.KeepNumericCounts | app.py:186 | every digit and every dot occurs as often in the result as in the text, so only the other characters are dropped |
| Scrape.NormalizePrice | app.py:178-188 | the cleaned-up price text, when there is one, is non-empty and made only of digits and dots |
| Scrape.NormalizePriceByCharacter | app.py:180-188 | the clean-up equals reading the text one character at a time: digits kept, each comma becomes a dot, everything else dropped. The result is none exactly when that reading is empty |
| Scrape.CleanTags | app.py:375 | the kept terms are non-empty and stripped; they are comma-free when the pieces are; none are kept exactly when every piece strips to empty |
| Scrape.CleanTagsOne | app.py:375 | one piece contributes its stripped form, or nothing when that is empty |
| Scrape.CleanTagsConcat | app.py:375 | cleaning a concatenation of pieces is cleaning each part and concatenating, so the terms keep the order of their pieces |
| Scrape.CleanTagsMembers | app.py:375 | a term is kept exactly when it is the stripped form of some piece and is not empty |
| Scrape.TagsOf | app.py:375-377 | at least one term, each non-empty, stripped and comma-free. It is the default `decoración navidad` when every piece is blank, and otherwise exactly the cleaned pieces |
| Scrape.ParseTags | app.py:375-377 | the parsed setting gives at least one term, each non-empty, stripped and free of commas |
| Scrape.ParseTagsMembers | app.py:375-377 | the parsed setting is the default term when every comma-separated piece is blank, and otherwise holds exactly the non-empty stripped pieces |
| Scrape.ParseTagsRoundTrip | app.py:375-377 | non-empty, stripped, comma-free terms joined with commas parse back to the same list |
| Text.Strip | app.py:375 | the result has no whitespace at either end, and a text already in that form is unchanged |
| Text.StripSlice | app.py:375 | the result is a contiguous slice of the text with only whitespace before and after it |
| Text.StripUnique | app.py:375 | surrounding a stripped text with any whitespace and stripping gives it back, so the slice above is the only one possible |
| Text.Split | app.py:375 | splitting on a separator gives at least one piece, and no piece contains the separator |
| Text.JoinSplit | app.py:375 | joining the pieces of a split with the separator gives back the original text |
| Text.SplitJoin | app.py:375 | splitting a join of separator-free pieces gives back the pieces |
| Text.NatToString | app.py:360 | `str()` of a natural number is a non-empty digit string with no leading zero except for 0 |
| Text.ParseNatToString | app.py:360 | the decimal rendering of a natural number reads back as that number |
| Store.Load | app.py:143-151 | a readable file yields its contents, and a missing or unreadable one yields the default |
| Store.AppendToCorruptFile | app.py:252-257 | appending to an unreadable ledger file leaves a ledger holding only today's new change: earlier dates are lost |
| Store.AppendToReadableFile | app.py:252-257 | appending to a readable ledger file extends today's list and keeps every other date |
| Cycle.Configure | app.py:33-35 | the terms are the parsed `TAGS` setting when it is set, and `decoración navidad` when it is absent. The page count is 3 and the summary hour 20 unless set. There is always at least one term, each non-empty, stripped and comma-free |
| Cycle.Start | app.py:374 | the starting history and ledger are the contents of their files, each empty when its file is missing or unreadable. The dates already marked are those whose sentinel file exists |
| Cycle.Observed | app.py:274-277 | no records are scraped when the page count is not positive |
| Cycle.SearchUrlsMembers | app.py:163-166 | a URL is among a term's search URLs exactly when it is that term's URL for some page 1 to n |
| Cycle.PagesOfMembers | app.py:276-278 | a record is among the records of some pages exactly when one of those pages yields it |
| Cycle.TermPagesMembers | app.py:275-278 | a record is among one term's records exactly when one of its pages 1 to n yields it |
| Cycle.ObservedMembers | app.py:274-278 | a record is processed in a pass exactly when some page 1 to n of some search term yields it |
| Cycle.PagesOfConcat | app.py:276-278 | the records of a list of pages are those of each page in turn, in page order |
| Cycle.ObservedConcat | app.py:274-278 | a pass over a list of terms processes the records of each term in turn, in term order |
| Cycle.ObservedOne | app.py:274-278 | one term's records are those of its result pages 1 to n, in page order, each as often as its page yields it |
| Cycle.RunCycle | app.py:380-387 | a pass keeps the processed history. A digest is sent exactly when the hour is right, today is unmarked, and there are changes from earlier today or from this pass. It lists them in order and goes out as one text send after the pass's notifications, which are exactly those of its changes. Whenever the hour is right and today is unmarked, today's list ends empty, even when nothing is sent. Today is marked whenever the hour is right. Other dates of the ledger are untouched, and when no digest check runs today's list keeps this pass's changes after the earlier ones |
| Cycle.Run | app.py:380-396 | the set of marked dates only grows over a run |
| Cycle.NoDigestOnceMarked | app.py:343-345 | once a date is marked, no pass on that date sends a digest |
| Cycle.AtMostOneDigestPerDay | app.py:337-364 | any number of passes on one date send at most one digest for it, and none when it was already marked |

## Left out

- HTTP session, retries and header rotation (app.py:65-71, 89-100): network plumbing and randomness.
- Telegram HTTP calls (app.py:105-138): a `Sink` of two oracles stands for them. The unconfigured-token case is just an oracle that always fails.
- HTML parsing in `analizar_pagina` (app.py:193-242): it depends on an external parser and the page layout. The `fetch` parameter gives each page's records directly.
- The bodies of `cargar_json`/`guardar_json` (app.py:143-158) are file I/O. Only the default-on-failure rule is kept (`Store`). A failed save is ignored by the program and is not modelled.
- Ledger reloads (app.py:252, 260): the program reads `daily.json` again at every append and every drain. The model reads it once, in `Cycle.Start`, and keeps it in memory. The two agree while every save succeeds and nothing else writes the file. `Store.AppendToCorruptFile` shows what a reload of an unreadable file does.
- Sentinel files and log files (app.py:51-60, 343-350, 364): the sentinels are a set of dates. `Cycle.Start` takes the dates whose sentinel file exists, and a pass adds to that set where the program creates a file. Logging is dropped.
- The Flask keep-alive server and its thread (app.py:76-84, 403): user interface and concurrency.
- The sleep and jitter of the main loop (app.py:334, 369-396): `Cycle.Run` takes an explicit sequence of passes.
- The start-up Telegram message (app.py:372): a fixed notification that does not affect any state.
- Clock reads: the program reads `datetime.now()` and `date.today()` several times per operation. The model reads the clock once per pass, so a pass that crosses midnight is not modelled.
- Reading the environment (app.py:31-39): `Cycle.Configure` takes each setting as present or absent. `PAGES_PER_TAG` and `SUMMARY_HOUR` are taken once read as integers. A value that `int()` rejects stops the program at start-up, which is not modelled. The token, chat id, file names, log directory and port are not modelled.
- Exceptions: the main loop catches any exception of a pass (app.py:391-392). Non-numeric legacy prices, non-object history entries, history values that are JSON `null` and ledger entries missing keys would raise or behave differently. The model's types exclude them.
- Floats: prices are exact reals, and Python's float formatting in messages is the `show` parameter. Rounding is not modelled. Neither is overflow: `float()` of a cleaned text with more than about 309 digits before the dot gives `inf` (app.py:189). Once stored, any later finite price for that product would count as a drop.
- Scrape.NormalizePrice: stops before `float(...)` (app.py:189). A cleaned-up text such as `1.2.3` that `float` would reject, making the program return `None`, is returned as it is.
- Scrape.NormalizePrice: treats only ASCII `0`-`9` as digits. Python's `str.isdigit` also accepts other Unicode digit characters.
- Scrape.SearchUrls: `quote_plus` is a parameter with no properties.

=== FILE: cycle.dfy ===
/** One pass of the main loop and a run of passes: scrape every result page of
    every search term, process the records, then check whether the daily digest
    is due. The state that survives between passes is the history, the daily
    ledger and the set of dates whose digest has been dealt with. */
module Cycle {
  import opened Options
  import opened Prices
  import opened Records
  import opened Scrape
  import Ledger
  import Detector
  import Digest
  import Store

  /** The settings read from the environment. */
  datatype Config = Config(tags: seq<string>, pagesPerTag: int, summaryHour: int)

  /** The state kept between passes. */
  datatype State = State(history: History, daily: Ledger.Daily, sentinels: set<string>)

  /** What one pass sees of the outside world: the clock, and the records each
      result page yields. */
  datatype Tick = Tick(now: string, today: string, hour: int, fetch: string -> seq<Record>)

  /** The page count used when the setting is absent. */
  const DefaultPagesPerTag: int := 3

  /** The settings from the environment: the raw term setting and the
      page count and summary hour once read as integers; an absent one takes
      its default. */
  function Configure(tagsEnv: Option<string>, pagesEnv: Option<int>, hourEnv: Option<int>): (cfg: Config)
    ensures |cfg.tags| >= 1 && AllTerms(cfg.tags) && CommaFree(cfg.tags)
    ensures tagsEnv.None? ==> cfg.tags == [DefaultTag]
    ensures tagsEnv.Some? ==> cfg.tags == ParseTags(tagsEnv.value)
    ensures pagesEnv.None? ==> cfg.pagesPerTag == 3
    ensures pagesEnv.Some? ==> cfg.pagesPerTag == pagesEnv.value
    ensures hourEnv.None? ==> cfg.summaryHour == 20
    ensures hourEnv.Some? ==> cfg.summaryHour == hourEnv.value
  {
    var tags := ParseTags(tagsEnv.GetOr(DefaultTag));
    assert tagsEnv.None? ==> tags == [DefaultTag] by {
      DefaultTagClean();
      assert Text.Join([DefaultTag], ",") == DefaultTag;
      ParseTagsRoundTrip([DefaultTag]);
    }
    Config(tags, pagesEnv.GetOr(DefaultPagesPerTag), hourEnv.GetOr(Digest.DefaultSummaryHour))
  }

  /** The starting state: the history file and the daily ledger file (each
      empty when missing or unreadable), and the dates whose digest sentinel
      file already exists. */
  function Start(historyFile: Store.FileState<History>, dailyFile: Store.FileState<Ledger.Daily>,
                 marked: set<string>): (st: State)
    ensures historyFile.Holds? ==> st.history == historyFile.value
    ensures !historyFile.Holds? ==> st.history == map[]
    ensures dailyFile.Holds? ==> st.daily == dailyFile.value
    ensures !dailyFile.Holds? ==> st.daily == map[]
    ensures st.sentinels == marked
  {
    State(Store.Load(historyFile, map[]), Store.Load(dailyFile, map[]), marked)
  }

  /** The records of the given pages, page by page. */
  function PagesOf(urls: seq<string>, fetch: string -> seq<Record>): (recs: seq<Record>)
    ensures urls == [] ==> recs == []
    decreases |urls|
  {
    if urls == [] then [] else fetch(urls[0]) + PagesOf(urls[1..], fetch)
  }

  /** The records one pass processes: for each search term in order, its
      result pages in order. */
  function Observed(tags: seq<string>, pages: int, quote: string -> string,
                    fetch: string -> seq<Record>): (recs: seq<Record>)
    ensures pages <= 0 ==> recs == []
    decreases |tags|
  {
    if tags == [] then []
    else PagesOf(SearchUrls(tags[0], pages, quote), fetch) + Observed(tags[1..], pages, quote, fetch)
  }

  datatype CycleOutcome = CycleOutcome(state: State, attempts: seq<Send>, digest: Option<string>, anyChanges: bool)

  /** One pass of the main loop: process every record, keep the history, then
      run the digest check. A digest lists the changes recorded earlier today
      followed by the ones this pass found. */
  function RunCycle(cfg: Config, st: State, tick: Tick, quote: string -> string, sink: Sink,
                    show: Price -> string): (o: CycleOutcome)
    ensures var b := Detector.ProcessRecords(st.history, st.daily, tick.today,
                                             Observed(cfg.tags, cfg.pagesPerTag, quote, tick.fetch), tick.now, sink, show);
      o.state.history == b.history && o.anyChanges == (b.events != [])
    ensures o.digest.Some? <==>
      tick.hour == cfg.summaryHour && tick.today !in st.sentinels
      && (Ledger.TodayList(st.daily, tick.today) != [] || o.anyChanges)
    ensures var b := Detector.ProcessRecords(st.history, st.daily, tick.today,
                                             Observed(cfg.tags, cfg.pagesPerTag, quote, tick.fetch), tick.now, sink, show);
      o.digest.Some? ==>
        o.digest.value == Text.Join(Digest.SummaryLines(tick.today, Ledger.TodayList(st.daily, tick.today) + b.events, show), "\n")
    ensures o.state.sentinels == if tick.hour == cfg.summaryHour then st.sentinels + {tick.today} else st.sentinels
    // a digest check empties today's list, whether or not it had changes
    ensures tick.hour == cfg.summaryHour && tick.today !in st.sentinels ==>
      Ledger.TodayList(o.state.daily, tick.today) == []
    // the pass's notifications, then the summary when one is sent
    ensures var b := Detector.ProcessRecords(st.history, st.daily, tick.today,
                                             Observed(cfg.tags, cfg.pagesPerTag, quote, tick.fetch), tick.now, sink, show);
      o.attempts == b.attempts + (if o.digest.Some? then [Text(o.digest.value)] else [])
    ensures cfg.pagesPerTag <= 0 ==> o.state.history == st.history && !o.anyChanges
    // other dates of the ledger are untouched
    ensures forall k :: k in st.daily && k != tick.today ==> k in o.state.daily && o.state.daily[k] == st.daily[k]
    // without a digest check, today's list keeps the pass's changes for later
    ensures var b := Detector.ProcessRecords(st.history, st.daily, tick.today,
                                             Observed(cfg.tags, cfg.pagesPerTag, quote, tick.fetch), tick.now, sink, show);
      !(tick.hour == cfg.summaryHour && tick.today !in st.sentinels) ==>
        Ledger.TodayList(o.state.daily, tick.today) == Ledger.TodayList(st.daily, tick.today) + b.events
  {
    var recs := Observed(cfg.tags, cfg.pagesPerTag, quote, tick.fetch);
    var b := Detector.ProcessRecords(st.history, st.daily, tick.today, recs, tick.now, sink, show);
    var d := Digest.DigestIfTime(b.daily, st.sentinels, tick.hour, cfg.summaryHour, tick.today, show);
    var digestSends := if d.message.Some? then [Text(d.message.value)] else [];
    CycleOutcome(State(b.history, d.daily, d.sentinels), b.attempts + digestSends, d.message, b.anyChanges)
  }

  datatype RunOutcome = RunOutcome(state: State, digests: seq<string>)

  /** Successive passes of the main loop; `digests` are the summaries sent. */
  function Run(cfg: Config, st: State, ticks: seq<Tick>, quote: string -> string, sink: Sink,
               show: Price -> string): (o: RunOutcome)
    ensures st.sentinels <= o.state.sentinels
    decreases |ticks|
  {
    if ticks == [] then RunOutcome(st, [])
    else
      var c := RunCycle(cfg, st, ticks[0], quote, sink, show);
      var rest := Run(cfg, c.state, ticks[1..], quote, sink, show);
      RunOutcome(rest.state, (if c.digest.Some? then [c.digest.value] else []) + rest.digests)
  }

  /** Once a date is marked, no pass on that date sends a digest. */
  lemma {:induction false} NoDigestOnceMarked(cfg: Config, st: State, ticks: seq<Tick>, quote: string -> string,
                                              sink: Sink, show: Price -> string, day: string)
    requires day in st.sentinels
    requires forall i :: 0 <= i < |ticks| ==> ticks[i].today == day
    ensures Run(cfg, st, ticks, quote, sink, show).digests == []
    decreases |ticks|
  {
    if ticks != [] {
      var c := RunCycle(cfg, st, ticks[0], quote, sink, show);
      NoDigestOnceMarked(cfg, c.state, ticks[1..], quote, sink, show, day);
    }
  }

  /** However many passes run on one date, at most one digest is sent for it,
      and none when its digest was already dealt with. */
  lemma {:induction false} AtMostOneDigestPerDay(cfg: Config, st: State, ticks: seq<Tick>, quote: string -> string,
                                                 sink: Sink, show: Price -> string, day: string)
    requires forall i :: 0 <= i < |ticks| ==> ticks[i].today == day
    ensures |Run(cfg, st, ticks, quote, sink, show).digests| <= if day in st.sentinels then 0 else 1
    decreases |ticks|
  {
    if ticks != [] {
      var c := RunCycle(cfg, st, ticks[0], quote, sink, show);
      if c.digest.Some? {
        NoDigestOnceMarked(cfg, c.state, ticks[1..], quote, sink, show, day);
      } else {
        AtMostOneDigestPerDay(cfg, c.state, ticks[1..], quote, sink, show, day);
      }
    }
  }

  /** The URLs of one term are exactly its pages 1 to `pages`. */
  lemma SearchUrlsMembers(term: string, pages: int, quote: string -> string, u: string)
    ensures u in SearchUrls(term, pages, quote) <==>
      exists p :: 1 <= p <= pages && u == PageUrl(quote(term), p)
  {
    var urls := SearchUrls(term, pages, quote);
    if u in urls {
      var i :| 0 <= i < |urls| && urls[i] == u;
      assert u == PageUrl(quote(term), i + 1);
    }
    if exists p :: 1 <= p <= pages && u == PageUrl(quote(term), p) {
      var p :| 1 <= p <= pages && u == PageUrl(quote(term), p);
      assert urls[p - 1] == u;
    }
  }

  /** A record is among the pages' records exactly when some page yields it. */
  lemma {:induction false} PagesOfMembers(urls: seq<string>, fetch: string -> seq<Record>, x: Record)
    ensures x in PagesOf(urls, fetch) <==> exists u :: u in urls && x in fetch(u)
    decreases |urls|
  {
    if urls != [] {
      PagesOfMembers(urls[1..], fetch, x);
      if exists u :: u in urls && x in fetch(u) {
        var u :| u in urls && x in fetch(u);
        if u != urls[0] {
          assert u in urls[1..];
        }
      }
      if exists u :: u in urls[1..] && x in fetch(u) {
        var u :| u in urls[1..] && x in fetch(u);
        assert u in urls;
      }
    }
  }

  /** A record is among one term's pages exactly when one of its pages 1 to
      `pages` yields it. */
  lemma TermPagesMembers(term: string, pages: int, quote: string -> string,
                         fetch: string -> seq<Record>, x: Record)
    ensures x in PagesOf(SearchUrls(term, pages, quote), fetch) <==>
      exists p :: 1 <= p <= pages && x in fetch(PageUrl(quote(term), p))
  {
    var urls := SearchUrls(term, pages, quote);
    PagesOfMembers(urls, fetch, x);
    if x in PagesOf(urls, fetch) {
      var u :| u in urls && x in fetch(u);
      SearchUrlsMembers(term, pages, quote, u);
    }
    if exists p :: 1 <= p <= pages && x in fetch(PageUrl(quote(term), p)) {
      var p :| 1 <= p <= pages && x in fetch(PageUrl(quote(term), p));
      SearchUrlsMembers(term, pages, quote, PageUrl(quote(term), p));
    }
  }

  /** A record is processed in a pass exactly when some result page 1 to
      `pages` of some search term yields it. */
  lemma {:induction false} ObservedMembers(tags: seq<string>, pages: int, quote: string -> string,
                                           fetch: string -> seq<Record>, x: Record)
    ensures x in Observed(tags, pages, quote, fetch) <==>
      exists t, p :: t in tags && 1 <= p <= pages && x in fetch(PageUrl(quote(t), p))
    decreases |tags|
  {
    if tags != [] {
      ObservedMembers(tags[1..], pages, quote, fetch, x);
      TermPagesMembers(tags[0], pages, quote, fetch, x);
      if exists t, p :: t in tags && 1 <= p <= pages && x in fetch(PageUrl(quote(t), p)) {
        var t, p :| t in tags && 1 <= p <= pages && x in fetch(PageUrl(quote(t), p));
        if t != tags[0] {
          assert t in tags[1..];
        }
      }
      if exists t, p :: t in tags[1..] && 1 <= p <= pages && x in fetch(PageUrl(quote(t), p)) {
        var t, p :| t in tags[1..] && 1 <= p <= pages && x in fetch(PageUrl(quote(t), p));
        assert t in tags;
      }
    }
  }

  /** The records of several pages are those of each page in turn. */
  lemma {:induction false} PagesOfConcat(a: seq<string>, b: seq<string>, fetch: string -> seq<Record>)
    ensures PagesOf(a + b, fetch) == PagesOf(a, fetch) + PagesOf(b, fetch)
    decreases |a|
  {
    if a == [] {
      assert a + b == b;
    } else {
      assert (a + b)[0] == a[0];
      assert (a + b)[1..] == a[1..] + b;
      PagesOfConcat(a[1..], b, fetch);
    }
  }

  /** A pass over several lists of terms sees the records of each list in
      turn, so with `SearchUrls` and `PagesOfConcat` the records come term by
      term, and within a term page by page, each as often as its page yields it. */
  lemma {:induction false} ObservedConcat(a: seq<string>, b: seq<string>, pages: int, quote: string -> string,
                                          fetch: string -> seq<Record>)
    ensures Observed(a + b, pages, quote, fetch) == Observed(a, pages, quote, fetch) + Observed(b, pages, quote, fetch)
    decreases |a|
  {
    if a == [] {
      assert a + b == b;
    } else {
      assert (a + b)[0] == a[0];
      assert (a + b)[1..] == a[1..] + b;
      ObservedConcat(a[1..], b, pages, quote, fetch);
    }
  }

  /** One term's records are those of its pages 1 to `pages`, in page order. */
  lemma ObservedOne(t: string, pages: int, quote: string -> string, fetch: string -> seq<Record>)
    ensures Observed([t], pages, quote, fetch) == PagesOf(SearchUrls(t, pages, quote), fetch)
  {
    assert [t][1..] == [];
  }
}

=== FILE: detector.dfy ===
/** The change detector: the per-product branch of `process_once`. Each scraped
    record with a price is classified against the history as a new product, a
    price drop, or nothing new; the history, the daily ledger and the Telegram
    notifications follow from that classification. The whole cycle is the same
    step folded over the records in scrape order. */
module Detector {
  import opened Options
  import opened Prices
  import opened Records
  import Ledger

  /** The price of the last notification for a product: the `precio` key when it
      holds a value, otherwise the legacy `price` key when that is truthy (a
      legacy price of zero counts as no price at all). */
  function PreviousPrice(e: Entry): (p: Option<Price>)
    ensures e.precio.Some? ==> p == e.precio
    ensures e.precio.None? ==> (p.Some? <==> e.legacyPrice.Some? && Truthy(e.legacyPrice.value))
    ensures p.Some? ==> p == e.precio || p == e.legacyPrice
  {
    if e.precio.Some? then e.precio
    else if e.legacyPrice.Some? && Truthy(e.legacyPrice.value) then e.legacyPrice
    else None
  }

  /** Whether the record is a strict price drop on a known product that has a
      previous price. An equal price is not a drop. */
  predicate IsDrop(h: History, r: Record) {
    && r.precio.Some?
    && r.asin in h
    && PreviousPrice(h[r.asin]).Some?
    && Lt(r.precio.value, PreviousPrice(h[r.asin]).value)
  }

  datatype Delivery = Delivery(attempts: seq<Send>, sent: bool)

  /** The notification rule of `process_once`: the product photo with `msg` as
      its caption when there is an image, and one plain text message with `msg`
      when there is no image or the photo send failed. No call is repeated, every
      call but the last failed, and `sent` is the outcome of the last call. */
  predicate PhotoThenText(sink: Sink, image: Option<string>, msg: string, d: Delivery) {
    && 1 <= |d.attempts| <= 2
    && d.attempts[0] == (if TruthyText(image) then Photo(image.value, msg) else Text(msg))
    && (forall i :: 1 <= i < |d.attempts| ==> d.attempts[i] == Text(msg))
    && (forall i, j :: 0 <= i < j < |d.attempts| ==> d.attempts[i] != d.attempts[j])
    && (forall i :: 0 <= i < |d.attempts| - 1 ==> !Succeeds(sink, d.attempts[i]))
    && (d.attempts[|d.attempts| - 1] == Text(msg) || Succeeds(sink, d.attempts[|d.attempts| - 1]))
    && (d.sent <==> Succeeds(sink, d.attempts[|d.attempts| - 1]))
  }

  /** Sends `msg` as the caption of the product photo when there is one, and
      falls back to a plain text message when there is no photo or the photo
      send fails. `sent` is only logged by the program. */
  function Deliver(sink: Sink, image: Option<string>, msg: string): (d: Delivery)
    ensures PhotoThenText(sink, image, msg, d)
    ensures !TruthyText(image) ==> d.attempts == [Text(msg)]
    ensures TruthyText(image) ==> (|d.attempts| == 2 <==> !sink.photo(image.value, msg))
  {
    if TruthyText(image) then
      var photo := Photo(image.value, msg);
      if Succeeds(sink, photo) then Delivery([photo], true)
      else Delivery([photo, Text(msg)], sink.text(msg))
    else
      Delivery([Text(msg)], sink.text(msg))
  }

  /** The notification rule leaves no choice: any delivery that follows it is
      the one `Deliver` makes. */
  lemma DeliverUnique(sink: Sink, image: Option<string>, msg: string, d: Delivery)
    requires PhotoThenText(sink, image, msg, d)
    ensures d == Deliver(sink, image, msg)
  {
    var a := d.attempts;
    if TruthyText(image) {
      if Succeeds(sink, a[0]) {
        assert |a| == 1;
      } else {
        assert |a| == 2 && a[1] == Text(msg);
      }
    }
  }

  /** The notification text for a new product. */
  function NewMessage(titulo: string, precio: Price, link: string, show: Price -> string): string {
    "🆕 <b>NUEVO PRODUCTO</b>\n"
    + "🛒 <b>" + titulo + "</b>\n"
    + "💶 Precio: " + show(precio) + "€\n"
    + "🔗 " + link
  }

  /** The notification text for a price drop. */
  function DropMessage(titulo: string, prev: Price, precio: Price, link: string, show: Price -> string): string {
    "📉 <b>BAJADA DE PRECIO</b>\n"
    + "🛒 <b>" + titulo + "</b>\n"
    + "⬇ Antes: " + show(prev) + "€\n"
    + "🟢 Ahora: " + show(precio) + "€\n"
    + "🔗 " + link
  }

  /** What one record does: the new history, the changes to append to the
      ledger, the Telegram calls made, and whether `any_changes` was set. */
  datatype StepOutcome = StepOutcome(
    history: History,
    events: seq<Change>,
    attempts: seq<Send>,
    changed: bool)

  /** Processes one scraped record at time `now`. */
  function Step(h: History, r: Record, now: string, sink: Sink, show: Price -> string): (o: StepOutcome)
    // at most one change, and a notification is attempted exactly when there is one
    ensures |o.events| <= 1
    ensures o.changed <==> o.events != []
    ensures o.changed <==> o.attempts != []
    // no other product is touched
    ensures forall k :: k != r.asin ==> (k in o.history <==> k in h)
    ensures forall k :: k != r.asin && k in h ==> o.history[k] == h[k]
    // a record without a price changes nothing
    ensures r.precio.None? ==> o.history == h && o.events == [] && o.attempts == []
    // an unknown product is recorded as it was scraped and reported as new
    ensures r.precio.Some? && r.asin !in h ==>
      && o.history == h[r.asin := Entry(r.titulo, r.precio, None, r.link, now)]
      && o.events == [Change(NewKind, r.asin, r.titulo, None, r.precio.value, r.link, now)]
      && o.attempts == Deliver(sink, r.image, NewMessage(r.titulo, r.precio.value, r.link, show)).attempts
    // a strict drop below the previous price rewrites only the price and the
    // time seen, and is reported with the previous price as the old one
    ensures IsDrop(h, r) ==>
      var e := h[r.asin];
      && o.history == h[r.asin := e.(precio := r.precio, lastSeen := now)]
      && o.events == [Change(DropKind, r.asin, r.titulo, PreviousPrice(e), r.precio.value, r.link, now)]
      && o.attempts == Deliver(sink, r.image,
                               DropMessage(r.titulo, PreviousPrice(e).value, r.precio.value, r.link, show)).attempts
    // any other sighting of a known product only refreshes the time seen
    ensures r.precio.Some? && r.asin in h && !IsDrop(h, r) ==>
      && o.history == h[r.asin := h[r.asin].(lastSeen := now)]
      && o.events == [] && o.attempts == []
    // each change is notified by one or two Telegram calls, and nothing else is
    ensures |o.events| <= |o.attempts| <= 2 * |o.events|
  {
    if r.precio.None? then
      StepOutcome(h, [], [], false)
    else if r.asin !in h then
      var msg := NewMessage(r.titulo, r.precio.value, r.link, show);
      var delivery := Deliver(sink, r.image, msg);
      var entry := Entry(r.titulo, r.precio, None, r.link, now);
      var change := Change(NewKind, r.asin, r.titulo, None, r.precio.value, r.link, now);
      StepOutcome(h[r.asin := entry], [change], delivery.attempts, true)
    else
      var prev := PreviousPrice(h[r.asin]);
      if prev.Some? && Lt(r.precio.value, prev.value) then
        var msg := DropMessage(r.titulo, prev.value, r.precio.value, r.link, show);
        var delivery := Deliver(sink, r.image, msg);
        var entry := h[r.asin].(precio := r.precio, lastSeen := now);
        var change := Change(DropKind, r.asin, r.titulo, prev, r.precio.value, r.link, now);
        StepOutcome(h[r.asin := entry], [change], delivery.attempts, true)
      else
        StepOutcome(h[r.asin := h[r.asin].(lastSeen := now)], [], [], false)
  }

  /** The identifiers of the records that carry a price. */
  function PricedAsins(recs: seq<Record>): set<string>
    decreases |recs|
  {
    if recs == [] then {}
    else (if recs[0].precio.Some? then {recs[0].asin} else {}) + PricedAsins(recs[1..])
  }

  /** The identifiers of all the records. */
  function Asins(recs: seq<Record>): set<string>
    decreases |recs|
  {
    if recs == [] then {} else {recs[0].asin} + Asins(recs[1..])
  }

  /** Every change is about one of the products `ids`. */
  predicate Names(events: seq<Change>, ids: set<string>) {
    forall i :: 0 <= i < |events| ==> events[i].asin in ids
  }

  lemma NamesConcat(a: seq<Change>, b: seq<Change>, ida: set<string>, idb: set<string>)
    requires Names(a, ida) && Names(b, idb)
    ensures Names(a + b, ida + idb)
  {
    forall i | 0 <= i < |a + b|
      ensures (a + b)[i].asin in ida + idb
    {
      if i >= |a| {
        assert (a + b)[i] == b[i - |a|];
      }
    }
  }

  /** A step's change, if any, is about the record's own product, which has a price. */
  lemma StepNames(h: History, r: Record, now: string, sink: Sink, show: Price -> string)
    ensures Names(Step(h, r, now, sink, show).events, if r.precio.Some? then {r.asin} else {})
  {
  }

  /** What processing a batch of records does. */
  datatype Batch = Batch(
    history: History,
    daily: Ledger.Daily,
    events: seq<Change>,
    attempts: seq<Send>,
    anyChanges: bool)

  /** The per-record loop of `process_once`: each record is stepped in order and
      its changes are appended to today's ledger list as they are found. */
  function ProcessRecords(h: History, daily: Ledger.Daily, today: string, recs: seq<Record>,
                          now: string, sink: Sink, show: Price -> string): (b: Batch)
    ensures b.anyChanges <==> b.events != []
    ensures |b.events| <= |recs|
    ensures NewOrDrop(b.events)
    ensures b.daily == Ledger.AppendAll(daily, today, b.events)
    ensures |b.events| <= |b.attempts| <= 2 * |b.events|
    decreases |recs|
  {
    if recs == [] then
      Batch(h, daily, [], [], false)
    else
      var s := Step(h, recs[0], now, sink, show);
      var rest := ProcessRecords(s.history, Ledger.AppendAll(daily, today, s.events), today, recs[1..],
                                 now, sink, show);
      Ledger.AppendAllConcat(daily, today, s.events, rest.events);
      NotifiedConcat(s.events, rest.events, s.attempts, rest.attempts);
      StepNewOrDrop(h, recs[0], now, sink, show);
      NewOrDropConcat(s.events, rest.events);
      Batch(rest.history, rest.daily, s.events + rest.events, s.attempts + rest.attempts,
            s.changed || rest.anyChanges)
  }

  /** Every change is of kind `new` or `drop`. */
  predicate NewOrDrop(events: seq<Change>) {
    forall i :: 0 <= i < |events| ==> events[i].kind in {NewKind, DropKind}
  }

  lemma NewOrDropConcat(a: seq<Change>, b: seq<Change>)
    requires NewOrDrop(a) && NewOrDrop(b)
    ensures NewOrDrop(a + b)
  {
    forall i | 0 <= i < |a + b|
      ensures (a + b)[i].kind in {NewKind, DropKind}
    {
      if i >= |a| {
        assert (a + b)[i] == b[i - |a|];
      }
    }
  }

  lemma StepNewOrDrop(h: History, r: Record, now: string, sink: Sink, show: Price -> string)
    ensures NewOrDrop(Step(h, r, now, sink, show).events)
  {
  }

  /** One or two Telegram calls per change, kept across concatenation. */
  lemma NotifiedConcat(e1: seq<Change>, e2: seq<Change>, a1: seq<Send>, a2: seq<Send>)
    requires |e1| <= |a1| <= 2 * |e1| && |e2| <= |a2| <= 2 * |e2|
    ensures |e1 + e2| <= |a1 + a2| <= 2 * |e1 + e2|
  {
  }

  /** Every change of a batch is about a product of the batch that has a price. */
  lemma {:induction false} ProcessNames(h: History, daily: Ledger.Daily, today: string, recs: seq<Record>,
                                        now: string, sink: Sink, show: Price -> string)
    ensures Names(ProcessRecords(h, daily, today, recs, now, sink, show).events, PricedAsins(recs))
    decreases |recs|
  {
    if recs != [] {
      var s := Step(h, recs[0], now, sink, show);
      var d1 := Ledger.AppendAll(daily, today, s.events);
      var rest := ProcessRecords(s.history, d1, today, recs[1..], now, sink, show);
      assert ProcessRecords(h, daily, today, recs, now, sink, show).events == s.events + rest.events;
      ProcessNames(s.history, d1, today, recs[1..], now, sink, show);
      StepNames(h, recs[0], now, sink, show);
      NamesConcat(s.events, rest.events, if recs[0].precio.Some? then {recs[0].asin} else {},
                  PricedAsins(recs[1..]));
    }
  }

  /** The products of the `new` changes, in order. */
  function NewAsins(events: seq<Change>): seq<string>
    decreases |events|
  {
    if events == [] then []
    else (if events[0].kind == NewKind then [events[0].asin] else []) + NewAsins(events[1..])
  }

  predicate NoRepeats(xs: seq<string>) {
    forall i, j :: 0 <= i < j < |xs| ==> xs[i] != xs[j]
  }

  lemma NewAsinsConcat(a: seq<Change>, b: seq<Change>)
    ensures NewAsins(a + b) == NewAsins(a) + NewAsins(b)
    decreases |a|
  {
    if a != [] {
      NewAsinsConcat(a[1..], b);
      assert (a + b)[1..] == a[1..] + b;
    } else {
      assert a + b == b;
    }
  }

  /** A step reports its record's product as new exactly when it has a price
      and the history did not know it. */
  lemma StepNewAsins(h: History, r: Record, now: string, sink: Sink, show: Price -> string)
    ensures NewAsins(Step(h, r, now, sink, show).events) == if r.precio.Some? && r.asin !in h then [r.asin] else []
  {
  }

  /** The set arithmetic of one step of `ProcessNewProducts`, on plain values:
      `keys1` are the keys after the step, `first` what the step reported new. */
  lemma NewAsinsStep(a: string, priced: bool, keys: set<string>, keys1: set<string>, pricedRest: set<string>,
                     first: seq<string>, restNew: seq<string>)
    requires keys1 == keys + (if priced then {a} else {})
    requires first == if priced && a !in keys then [a] else []
    requires forall x :: x in restNew <==> x in pricedRest - keys1
    requires NoRepeats(restNew)
    ensures forall x :: x in first + restNew <==> x in ((if priced then {a} else {}) + pricedRest) - keys
    ensures NoRepeats(first + restNew)
  {
    var all := first + restNew;
    if first == [] {
      assert all == restNew;
    } else {
      assert a in keys1 && a !in restNew;
      forall i, j | 0 <= i < j < |all|
        ensures all[i] != all[j]
      {
        assert all[j] == restNew[j - 1];
        if i > 0 {
          assert all[i] == restNew[i - 1];
        } else {
          assert all[j] in restNew;
        }
      }
    }
  }

  /** A batch reports as new exactly the priced products the history did not
      know, each of them once. */
  lemma {:induction false} ProcessNewProducts(h: History, daily: Ledger.Daily, today: string, recs: seq<Record>,
                                              now: string, sink: Sink, show: Price -> string)
    ensures var b := ProcessRecords(h, daily, today, recs, now, sink, show);
      && (forall x :: x in NewAsins(b.events) <==> x in PricedAsins(recs) - h.Keys)
      && NoRepeats(NewAsins(b.events))
    decreases |recs|
  {
    if recs != [] {
      var r := recs[0];
      var s := Step(h, r, now, sink, show);
      var d1 := Ledger.AppendAll(daily, today, s.events);
      var rest := ProcessRecords(s.history, d1, today, recs[1..], now, sink, show);
      assert ProcessRecords(h, daily, today, recs, now, sink, show).events == s.events + rest.events;
      ProcessNewProducts(s.history, d1, today, recs[1..], now, sink, show);
      StepFrame(h, r, now, sink, show);
      StepNewAsins(h, r, now, sink, show);
      NewAsinsConcat(s.events, rest.events);
      NewAsinsStep(r.asin, r.precio.Some?, h.Keys, s.history.Keys, PricedAsins(recs[1..]),
                   NewAsins(s.events), NewAsins(rest.events));
    }
  }

  lemma StepFrame(h: History, r: Record, now: string, sink: Sink, show: Price -> string)
    ensures var h1 := Step(h, r, now, sink, show).history;
      && h1.Keys == h.Keys + (if r.precio.Some? then {r.asin} else {})
      && forall k :: k in h && k != r.asin ==> h1[k] == h[k]
  {
  }

  /** A batch adds exactly the priced products it saw to the history, and leaves
      every product it did not see as it was. */
  lemma {:induction false} ProcessFrame(h: History, daily: Ledger.Daily, today: string, recs: seq<Record>,
                                        now: string, sink: Sink, show: Price -> string)
    ensures var b := ProcessRecords(h, daily, today, recs, now, sink, show);
      && b.history.Keys == h.Keys + PricedAsins(recs)
      && forall k :: k in h && k !in Asins(recs) ==> b.history[k] == h[k]
    decreases |recs|
  {
    if recs != [] {
      var s := Step(h, recs[0], now, sink, show);
      var d1 := Ledger.AppendAll(daily, today, s.events);
      var hEnd := ProcessRecords(s.history, d1, today, recs[1..], now, sink, show).history;
      assert hEnd == ProcessRecords(h, daily, today, recs, now, sink, show).history;
      ProcessFrame(s.history, d1, today, recs[1..], now, sink, show);
      StepFrame(h, recs[0], now, sink, show);
      assert PricedAsins(recs) == (if recs[0].precio.Some? then {recs[0].asin} else {}) + PricedAsins(recs[1..]);
      assert Asins(recs) == {recs[0].asin} + Asins(recs[1..]);
    }
  }


  // ---------------------------------------------------------------------------
  // Stored prices never rise
  // ---------------------------------------------------------------------------

  /** `after` is no higher than `before`; a missing previous price stays missing. */
  predicate NotRaised(before: Option<Price>, after: Option<Price>) {
    && (before.None? ==> after.None?)
    && (before.Some? ==> after.Some? && !Lt(before.value, after.value))
  }

  /** Every product of `h` is still in `h2`, at a previous price no higher. */
  predicate PricesNotRaised(h: History, h2: History) {
    forall k :: k in h ==> k in h2 && NotRaised(PreviousPrice(h[k]), PreviousPrice(h2[k]))
  }

  lemma PricesNotRaisedTransitive(h1: History, h2: History, h3: History)
    requires PricesNotRaised(h1, h2) && PricesNotRaised(h2, h3)
    ensures PricesNotRaised(h1, h3)
  {
  }

  /** One step never raises the stored price of a product already known. */
  lemma StepNotRaised(h: History, r: Record, now: string, sink: Sink, show: Price -> string)
    ensures PricesNotRaised(h, Step(h, r, now, sink, show).history)
  {
  }

  /** A whole batch never raises the stored price of a product already known. */
  lemma {:induction false} ProcessNotRaised(h: History, daily: Ledger.Daily, today: string, recs: seq<Record>,
                                            now: string, sink: Sink, show: Price -> string)
    ensures PricesNotRaised(h, ProcessRecords(h, daily, today, recs, now, sink, show).history)
    decreases |recs|
  {
    if recs != [] {
      var s := Step(h, recs[0], now, sink, show);
      StepNotRaised(h, recs[0], now, sink, show);
      ProcessNotRaised(s.history, Ledger.AppendAll(daily, today, s.events), today, recs[1..], now, sink, show);
      PricesNotRaisedTransitive(h, s.history,
        ProcessRecords(s.history, Ledger.AppendAll(daily, today, s.events), today, recs[1..], now, sink, show).history);
    }
  }

  // ---------------------------------------------------------------------------
  // Re-processing the same records finds nothing
  // ---------------------------------------------------------------------------

  /** The record cannot cause a change against `h`: it has no price, or its
      product is known and is not cheaper than the stored price. */
  predicate Dominated(h: History, r: Record) {
    || r.precio.None?
    || (&& r.asin in h
        && (PreviousPrice(h[r.asin]).None? || !Lt(r.precio.value, PreviousPrice(h[r.asin]).value)))
  }

  lemma DominatedKept(h: History, h2: History, x: Record)
    requires Dominated(h, x) && PricesNotRaised(h, h2)
    ensures Dominated(h2, x)
  {
  }

  /** After a step, its own record is dominated: the stored price is now no
      higher than the record's. */
  lemma StepDominatesOwn(h: History, r: Record, now: string, sink: Sink, show: Price -> string)
    ensures Dominated(Step(h, r, now, sink, show).history, r)
  {
  }

  /** After a step, its own record is dominated, and so is every record that was
      dominated before. */
  lemma StepDominates(h: History, r: Record, now: string, sink: Sink, show: Price -> string, x: Record)
    requires Dominated(h, x)
    ensures Dominated(Step(h, r, now, sink, show).history, r)
    ensures Dominated(Step(h, r, now, sink, show).history, x)
  {
    StepDominatesOwn(h, r, now, sink, show);
    StepNotRaised(h, r, now, sink, show);
    DominatedKept(h, Step(h, r, now, sink, show).history, x);
  }

  /** Processing the same record twice in a row: the second time produces no
      change and no notification, whatever the first one did. */
  lemma StepIdempotent(h: History, r: Record, now1: string, now2: string, sink1: Sink, sink2: Sink,
                       show: Price -> string)
    ensures var h1 := Step(h, r, now1, sink1, show).history;
      && Step(h1, r, now2, sink2, show).events == []
      && Step(h1, r, now2, sink2, show).attempts == []
  {
    StepDominatesOwn(h, r, now1, sink1, show);
  }

  lemma {:induction false} ProcessKeepsDominated(h: History, daily: Ledger.Daily, today: string, recs: seq<Record>,
                                                 now: string, sink: Sink, show: Price -> string, x: Record)
    requires Dominated(h, x)
    ensures Dominated(ProcessRecords(h, daily, today, recs, now, sink, show).history, x)
  {
    ProcessNotRaised(h, daily, today, recs, now, sink, show);
    DominatedKept(h, ProcessRecords(h, daily, today, recs, now, sink, show).history, x);
  }

  /** After a batch, every one of its records is dominated. */
  lemma {:induction false} ProcessDominatesAll(h: History, daily: Ledger.Daily, today: string, recs: seq<Record>,
                                               now: string, sink: Sink, show: Price -> string)
    ensures forall x :: x in recs ==> Dominated(ProcessRecords(h, daily, today, recs, now, sink, show).history, x)
    decreases |recs|
  {
    if recs != [] {
      var s := Step(h, recs[0], now, sink, show);
      var d1 := Ledger.AppendAll(daily, today, s.events);
      var hEnd := ProcessRecords(s.history, d1, today, recs[1..], now, sink, show).history;
      assert hEnd == ProcessRecords(h, daily, today, recs, now, sink, show).history;
      ProcessDominatesAll(s.history, d1, today, recs[1..], now, sink, show);
      StepDominatesOwn(h, recs[0], now, sink, show);
      ProcessKeepsDominated(s.history, d1, today, recs[1..], now, sink, show, recs[0]);
      forall x | x in recs
        ensures Dominated(hEnd, x)
      {
        if x != recs[0] {
          assert x in recs[1..];
        }
      }
    }
  }

  /** A batch of records that are all dominated changes nothing but the times seen. */
  lemma {:induction false} ProcessQuiet(h: History, daily: Ledger.Daily, today: string, recs: seq<Record>,
                                        now: string, sink: Sink, show: Price -> string)
    requires forall x :: x in recs ==> Dominated(h, x)
    ensures ProcessRecords(h, daily, today, recs, now, sink, show).events == []
    ensures ProcessRecords(h, daily, today, recs, now, sink, show).attempts == []
    decreases |recs|
  {
    if recs != [] {
      var s := Step(h, recs[0], now, sink, show);
      assert Dominated(h, recs[0]);
      assert s.events == [] && s.attempts == [];
      forall x | x in recs[1..]
        ensures Dominated(s.history, x)
      {
        StepDominates(h, recs[0], now, sink, show, x);
      }
      ProcessQuiet(s.history, Ledger.AppendAll(daily, today, s.events), today, recs[1..], now, sink, show);
    }
  }

  /** Running the cycle twice over the same scraped records: the second run
      finds no new product and no drop, sends nothing and leaves the ledger as
      the first run left it. */
  lemma ProcessIdempotent(h: History, daily: Ledger.Daily, today1: string, today2: string, recs: seq<Record>,
                          now1: string, now2: string, sink1: Sink, sink2: Sink, show: Price -> string)
    ensures var b1 := ProcessRecords(h, daily, today1, recs, now1, sink1, show);
      var b2 := ProcessRecords(b1.history, b1.daily, today2, recs, now2, sink2, show);
      && b2.events == []
      && b2.attempts == []
      && !b2.anyChanges
      && b2.daily == b1.daily
  {
    var b1 := ProcessRecords(h, daily, today1, recs, now1, sink1, show);
    ProcessDominatesAll(h, daily, today1, recs, now1, sink1, show);
    ProcessQuiet(b1.history, b1.daily, today2, recs, now2, sink2, show);
  }

  // ---------------------------------------------------------------------------
  // Delivery outcomes do not matter to the stored state
  // ---------------------------------------------------------------------------

  /** The history, the changes and the ledger do not depend on whether Telegram
      accepted any message, nor on how prices are rendered. */
  lemma {:induction false} ProcessIgnoresDelivery(h: History, daily: Ledger.Daily, today: string, recs: seq<Record>,
                                                  now: string, sink1: Sink, sink2: Sink,
                                                  show1: Price -> string, show2: Price -> string)
    ensures var b1 := ProcessRecords(h, daily, today, recs, now, sink1, show1);
      var b2 := ProcessRecords(h, daily, today, recs, now, sink2, show2);
      b1.history == b2.history && b1.events == b2.events && b1.daily == b2.daily
    decreases |recs|
  {
    if recs != [] {
      var s1 := Step(h, recs[0], now, sink1, show1);
      var s2 := Step(h, recs[0], now, sink2, show2);
      assert s1.history == s2.history && s1.events == s2.events;
      ProcessIgnoresDelivery(s1.history, Ledger.AppendAll(daily, today, s1.events), today, recs[1..],
                             now, sink1, sink2, show1, show2);
    }
  }
}

=== FILE: digest.dfy ===
/** The daily digest: once per calendar date, at the configured hour, today's
    ledger list is drained and summarised in one Telegram message. A per-date
    sentinel records that the digest for a date has been dealt with. */
module Digest {
  import opened Options
  import opened Prices
  import opened Records
  import opened Text
  import Ledger

  /** At most this many changes are listed in one summary. */
  const SummaryCap: nat := 30

  /** The hour used when `SUMMARY_HOUR` is not configured. */
  const DefaultSummaryHour: int := 20

  function Min(a: nat, b: nat): nat {
    if a <= b then a else b
  }

  function Header(today: string): string {
    "📝 <b>Resumen diario - " + today + "</b>"
  }

  /** Python's `str()` of a value that may be missing. */
  function ShowOptional(p: Option<Price>, show: Price -> string): string {
    match p
    case None => "None"
    case Some(v) => show(v)
  }

  /** One summary entry. Only a change of kind `"new"` is rendered as a new
      product; every other kind is rendered as a price drop. */
  function RenderChange(c: Change, show: Price -> string): (line: string)
    ensures |line| > 0
    ensures line[0] == '🆕' <==> c.kind == NewKind
    ensures line[0] == '📉' <==> c.kind != NewKind
  {
    if c.kind == NewKind then
      "🆕 " + c.titulo + "\n💶 " + show(c.newPrice) + "€\n🔗 " + c.link + "\n"
    else
      "📉 " + c.titulo + "\nAntes: " + ShowOptional(c.oldPrice, show) + "€ → Ahora: "
      + show(c.newPrice) + "€\n🔗 " + c.link + "\n"
  }

  /** One entry per change, in ledger order. */
  function RenderAll(cs: seq<Change>, show: Price -> string): (lines: seq<string>)
    ensures |lines| == |cs|
    ensures forall i :: 0 <= i < |cs| ==> lines[i] == RenderChange(cs[i], show)
    decreases |cs|
  {
    if cs == [] then [] else [RenderChange(cs[0], show)] + RenderAll(cs[1..], show)
  }

  /** Whether a summary line is the overflow note rather than a header, a
      blank line or a change entry. */
  predicate IsOverflowNote(line: string) {
    |line| > 0 && line[0] == '.'
  }

  /** The note that says how many changes did not fit. */
  function OverflowLine(n: nat): (line: string)
    ensures IsOverflowNote(line)
  {
    "... y " + NatToString(n) + " más."
  }

  /** The lines of the summary, before they are joined with newlines: the
      header, a blank line, the first `SummaryCap` changes in ledger order, and
      an overflow note exactly when there were more. */
  function SummaryLines(today: string, changes: seq<Change>, show: Price -> string): (lines: seq<string>)
    ensures |lines| == 2 + Min(|changes|, SummaryCap) + (if |changes| > SummaryCap then 1 else 0)
    ensures lines[0] == Header(today) && lines[1] == ""
    ensures lines[2..2 + Min(|changes|, SummaryCap)] == RenderAll(changes[..Min(|changes|, SummaryCap)], show)
    ensures |changes| > SummaryCap ==> lines[|lines| - 1] == OverflowLine(|changes| - SummaryCap)
    ensures IsOverflowNote(lines[|lines| - 1]) <==> |changes| > SummaryCap
  {
    var shown := changes[..Min(|changes|, SummaryCap)];
    var rendered := RenderAll(shown, show);
    var overflow := if |changes| > SummaryCap then [OverflowLine(|changes| - SummaryCap)] else [];
    Layout(Header(today), "", rendered, overflow);
    LastRenderedNotOverflow(shown, show);
    [Header(today), ""] + rendered + overflow
  }

  /** The last rendered entry, if any, is never mistaken for the overflow note. */
  lemma LastRenderedNotOverflow(cs: seq<Change>, show: Price -> string)
    ensures cs != [] ==> !IsOverflowNote(RenderAll(cs, show)[|cs| - 1])
  {
  }

  /** Where the parts of `[a, b] + mid + tail` end up. */
  lemma Layout<T>(a: T, b: T, mid: seq<T>, tail: seq<T>)
    ensures var l := [a, b] + mid + tail;
      && |l| == 2 + |mid| + |tail|
      && l[0] == a && l[1] == b
      && l[2..2 + |mid|] == mid
      && (tail != [] ==> l[|l| - 1] == tail[|tail| - 1])
      && (tail == [] && mid != [] ==> l[|l| - 1] == mid[|mid| - 1])
      && (tail == [] && mid == [] ==> l[|l| - 1] == b)
  {
  }

  datatype DigestOutcome = DigestOutcome(daily: Ledger.Daily, sentinels: set<string>, message: Option<string>)

  /** `send_daily_summary_if_time`: `sentinels` are the dates whose digest has
      been dealt with, `hour` the current hour, `message` the summary sent. */
  function DigestIfTime(daily: Ledger.Daily, sentinels: set<string>, hour: int, summaryHour: int,
                        today: string, show: Price -> string): (o: DigestOutcome)
    // outside the hour, or once today's sentinel exists, nothing happens
    ensures hour != summaryHour || today in sentinels ==> o == DigestOutcome(daily, sentinels, None)
    // otherwise today is drained and marked, and a summary is sent exactly when
    // today had changes
    ensures hour == summaryHour && today !in sentinels ==>
      && o.sentinels == sentinels + {today}
      && o.daily == Ledger.Drain(daily, today).daily
      && (o.message.Some? <==> Ledger.TodayList(daily, today) != [])
    ensures o.message.Some? ==>
      o.message.value == Join(SummaryLines(today, Ledger.TodayList(daily, today), show), "\n")
  {
    if hour != summaryHour || today in sentinels then
      DigestOutcome(daily, sentinels, None)
    else
      var drained := Ledger.Drain(daily, today);
      if drained.changes == [] then
        DigestOutcome(drained.daily, sentinels + {today}, None)
      else
        DigestOutcome(drained.daily, sentinels + {today},
                      Some(Join(SummaryLines(today, drained.changes, show), "\n")))
  }

  /** A sent summary starts with the header naming the date, and afterwards
      today's list is empty even when more than `SummaryCap` changes were
      drained. */
  lemma DigestShape(daily: Ledger.Daily, sentinels: set<string>, hour: int, summaryHour: int,
                    today: string, show: Price -> string)
    ensures var o := DigestIfTime(daily, sentinels, hour, summaryHour, today, show);
      o.message.Some? ==>
        && |Header(today)| <= |o.message.value|
        && o.message.value[..|Header(today)|] == Header(today)
        && Ledger.TodayList(o.daily, today) == []
        && today in o.sentinels
  {
  }

  /** Once a date's digest has been dealt with, later checks on that date do
      nothing, whatever the hour and whatever was appended meanwhile. */
  lemma DigestAtMostOnce(daily: Ledger.Daily, sentinels: set<string>, hour: int, summaryHour: int,
                         today: string, show: Price -> string, daily2: Ledger.Daily, hour2: int)
    requires hour == summaryHour
    ensures var o := DigestIfTime(daily, sentinels, hour, summaryHour, today, show);
      DigestIfTime(daily2, o.sentinels, hour2, summaryHour, today, show) == DigestOutcome(daily2, o.sentinels, None)
  {
  }
}

=== FILE: ledger.dfy ===
/** The daily ledger (`daily.json`): calendar date to the changes found that
    day, in the order they were found. The digest drains one date's list. */
module Ledger {
  import opened Records

  type Daily = map<string, seq<Change>>

  /** `daily.get(today, [])`. */
  function TodayList(d: Daily, today: string): seq<Change> {
    if today in d then d[today] else []
  }

  /** Appends one change to today's list, creating the list if needed. */
  function Append(d: Daily, today: string, c: Change): (r: Daily)
    ensures r.Keys == d.Keys + {today}
    ensures r[today] == TodayList(d, today) + [c]
    ensures forall k :: k in d && k != today ==> r[k] == d[k]
  {
    d[today := TodayList(d, today) + [c]]
  }

  /** The net effect of appending several changes, in order, to today's list. */
  function AppendAll(d: Daily, today: string, cs: seq<Change>): (r: Daily)
    ensures r.Keys == if cs == [] then d.Keys else d.Keys + {today}
    ensures TodayList(r, today) == TodayList(d, today) + cs
    ensures forall k :: k in d && k != today ==> r[k] == d[k]
  {
    if cs == [] then d else d[today := TodayList(d, today) + cs]
  }

  /** `AppendAll` is one `Append` per change, in order. */
  lemma {:induction false} AppendAllOneByOne(d: Daily, today: string, cs: seq<Change>)
    requires cs != []
    ensures AppendAll(d, today, cs) == AppendAll(Append(d, today, cs[0]), today, cs[1..])
  {
    assert TodayList(d, today) + cs == TodayList(d, today) + [cs[0]] + cs[1..];
  }

  /** Appending two runs of changes one after the other is appending their concatenation. */
  lemma AppendAllConcat(d: Daily, today: string, cs1: seq<Change>, cs2: seq<Change>)
    ensures AppendAll(AppendAll(d, today, cs1), today, cs2) == AppendAll(d, today, cs1 + cs2)
  {
    if cs1 == [] {
      assert cs1 + cs2 == cs2;
    } else if cs2 == [] {
      assert cs1 + cs2 == cs1;
    } else {
      assert TodayList(d, today) + cs1 + cs2 == TodayList(d, today) + (cs1 + cs2);
    }
  }

  datatype Drained = Drained(changes: seq<Change>, daily: Daily)

  /** Returns today's changes and empties today's list. The list is reset only
      when today's date is already a key; no date is ever removed. */
  function Drain(d: Daily, today: string): (o: Drained)
    ensures o.changes == TodayList(d, today)
    ensures o.daily.Keys == d.Keys
    ensures TodayList(o.daily, today) == []
    ensures forall k :: k in d && k != today ==> o.daily[k] == d[k]
    ensures today !in d ==> o.daily == d
  {
    Drained(TodayList(d, today), if today in d then d[today := []] else d)
  }

  /** A second drain on the same date, with nothing appended in between, finds nothing. */
  lemma DrainTwice(d: Daily, today: string)
    ensures Drain(Drain(d, today).daily, today).changes == []
    ensures Drain(Drain(d, today).daily, today).daily == Drain(d, today).daily
  {
  }

  /** Draining after appends returns what was there before followed by the
      appended changes, in order. */
  lemma AppendThenDrain(d: Daily, today: string, cs: seq<Change>)
    ensures Drain(AppendAll(d, today, cs), today).changes == TodayList(d, today) + cs
  {
  }
}

=== FILE: options.dfy ===
/** The optional value used wherever the program stores or returns Python's `None`. */
module Options {

  datatype Option<+T> = None | Some(value: T) {

    /** The wrapped value, or `default` when there is none. */
    function GetOr(default: T): T {
      match this
      case Some(v) => v
      case None => default
    }
  }

  /** Python truthiness of an optional string: present and not empty. */
  predicate TruthyText(v: Option<string>) {
    v.Some? && v.value != ""
  }
}

=== FILE: prices.dfy ===
/** Prices as the scraper stores them: a float parsed from the page text, or an
    integer found in an older history file. The program only ever compares two
    prices with `<` and tests one for truthiness, so both are read as exact reals
    (Python compares an int with a float exactly). */
module Prices {

  datatype Price = IntPrice(whole: int) | FloatPrice(amount: real)

  /** The exact numeric value of a price. */
  function Value(p: Price): real {
    match p
    case IntPrice(i) => i as real
    case FloatPrice(x) => x
  }

  /** Python's `a < b` on two prices. */
  predicate Lt(a: Price, b: Price) {
    Value(a) < Value(b)
  }

  /** Python's truthiness of a number: only zero (of either kind) is falsy. */
  predicate Truthy(p: Price) {
    Value(p) != 0.0
  }
}

=== FILE: records.dfy ===
/** The records the change detector reads and writes: a scraped product, a
    history entry, a change event of the daily ledger, and the notification
    sink the detector sends through. */
module Records {
  import opened Options
  import opened Prices

  /** One product scraped from a search page. `precio` is `None` when the page
      showed no parseable price; `image` is the photo URL, if any. */
  datatype Record = Record(
    asin: string,
    titulo: string,
    precio: Option<Price>,
    link: string,
    image: Option<string>)

  /** What the history file holds for one product. `precio` is the price the
      program last notified; `legacyPrice` is the `price` key some older files
      carry instead; `lastSeen` is the time the product was last scraped. */
  datatype Entry = Entry(
    titulo: string,
    precio: Option<Price>,
    legacyPrice: Option<Price>,
    link: string,
    lastSeen: string)

  /** The history file: product identifier to entry. */
  type History = map<string, Entry>

  const NewKind: string := "new"
  const DropKind: string := "drop"

  /** One change appended to the daily ledger. `kind` is the JSON `type` field
      (`"new"` or `"drop"` when written by the detector); `oldPrice` is absent
      for a new product. */
  datatype Change = Change(
    kind: string,
    asin: string,
    titulo: string,
    oldPrice: Option<Price>,
    newPrice: Price,
    link: string,
    time: string)

  /** One call made to the Telegram API. */
  datatype Send = Photo(url: string, caption: string) | Text(text: string)

  /** The Telegram API as the detector sees it: whether a photo send or a text
      send succeeds. */
  datatype Sink = Sink(photo: (string, string) -> bool, text: string -> bool)

  /** Whether the sink reports success for a call. */
  predicate Succeeds(sink: Sink, s: Send) {
    match s
    case Photo(url, caption) => sink.photo(url, caption)
    case Text(text) => sink.text(text)
  }
}

=== FILE: scrape.dfy ===
/** The scraping helpers whose logic does not depend on the HTML parser: the
    search URLs for a term, the product identifier of a result element, the
    character clean-up of a price text, and the list of search terms read from
    the configuration. */
module Scrape {
  import opened Options
  import opened Text

  // ---------------------------------------------------------------------------
  // Search URLs
  // ---------------------------------------------------------------------------

  const SearchBase: string := "https://www.amazon.es/s?k="
  const PageParam: string := "&page="

  /** The URL of one result page; `quoted` is the search term already encoded
      with `quote_plus`. */
  function PageUrl(quoted: string, page: nat): string {
    SearchBase + quoted + PageParam + NatToString(page)
  }

  /** `obtener_urls_busqueda`: the URLs of result pages 1 to `pages`, in order,
      and none when `pages` is not positive. `quote` stands for `quote_plus`. */
  function SearchUrls(term: string, pages: int, quote: string -> string): (urls: seq<string>)
    ensures |urls| == if pages > 0 then pages else 0
    ensures forall i :: 0 <= i < |urls| ==> urls[i] == PageUrl(quote(term), i + 1)
    decreases pages
  {
    if pages <= 0 then [] else SearchUrls(term, pages - 1, quote) + [PageUrl(quote(term), pages)]
  }

  /** The page number can be read back from each URL, so no two URLs of one
      term are the same. */
  lemma SearchUrlsPages(term: string, pages: int, quote: string -> string)
    ensures var urls := SearchUrls(term, pages, quote);
      var n := |SearchBase + quote(term) + PageParam|;
      && (forall i :: 0 <= i < |urls| ==>
            n <= |urls[i]| && AllDigits(urls[i][n..]) && ParseDecimal(urls[i][n..]) == i + 1)
      && (forall i, j :: 0 <= i < j < |urls| ==> urls[i] != urls[j])
  {
    var urls := SearchUrls(term, pages, quote);
    var prefix := SearchBase + quote(term) + PageParam;
    forall i | 0 <= i < |urls|
      ensures |prefix| <= |urls[i]| && urls[i][|prefix|..] == NatToString(i + 1)
    {
      assert urls[i] == prefix + NatToString(i + 1);
    }
    forall i | 0 <= i < |urls|
      ensures ParseDecimal(urls[i][|prefix|..]) == i + 1
    {
      ParseNatToString(i + 1);
    }
  }

  // ---------------------------------------------------------------------------
  // Product identifier
  // ---------------------------------------------------------------------------

  /** The attributes of a search-result element. */
  type Attributes = map<string, string>

  /** `div.get(name)`. */
  function Attr(div: Attributes, name: string): Option<string> {
    if name in div then Some(div[name]) else None
  }

  /** The first attribute, in the order given, whose value is present. */
  function FirstPresent(div: Attributes, names: seq<string>): (v: Option<string>)
    ensures v.Some? ==> TruthyText(v) && exists i :: 0 <= i < |names| && v == Attr(div, names[i])
                                                && forall j :: 0 <= j < i ==> !TruthyText(Attr(div, names[j]))
    ensures v.None? <==> forall i :: 0 <= i < |names| ==> !TruthyText(Attr(div, names[i]))
    decreases |names|
  {
    if names == [] then None
    else if TruthyText(Attr(div, names[0])) then Attr(div, names[0])
    else FirstPresent(div, names[1..])
  }

  /** `extraer_asin`: `data-asin` when it is longer than five characters,
      otherwise the first of `data-asin` and `data-asin-bfk` that is present.
      Since the fallback tries `data-asin` again, any non-empty `data-asin` is
      returned whatever its length: the length test never decides anything. */
  function ExtractAsin(div: Attributes): (asin: Option<string>)
    ensures asin.Some? ==> asin.value != ""
    ensures TruthyText(Attr(div, "data-asin")) ==> asin == Attr(div, "data-asin")
    ensures !TruthyText(Attr(div, "data-asin")) && TruthyText(Attr(div, "data-asin-bfk")) ==>
      asin == Attr(div, "data-asin-bfk")
    ensures asin.None? <==> !TruthyText(Attr(div, "data-asin")) && !TruthyText(Attr(div, "data-asin-bfk"))
  {
    var asin := Attr(div, "data-asin");
    if TruthyText(asin) && |asin.value| > 5 then asin
    else
      var names := ["data-asin", "data-asin-bfk"];
      assert names[0] == "data-asin" && names[1] == "data-asin-bfk";
      FirstPresent(div, names)
  }

  // ---------------------------------------------------------------------------
  // Price text clean-up
  // ---------------------------------------------------------------------------

  /** `s.replace(c, t)` for a single character `c`. */
  function ReplaceChar(s: string, c: char, t: string): (r: string)
    ensures c !in t ==> c !in r
    decreases |s|
  {
    if s == [] then [] else (if s[0] == c then t else [s[0]]) + ReplaceChar(s[1..], c, t)
  }

  /** A character the price filter keeps: a digit or a dot. */
  predicate Numeric(c: char) {
    IsDigit(c) || c == '.'
  }

  /** Keeps only digits and dots. */
  function KeepNumeric(s: string): (r: string)
    ensures forall i :: 0 <= i < |r| ==> Numeric(r[i])
    ensures |r| <= |s|
    decreases |s|
  {
    if s == [] then [] else (if Numeric(s[0]) then [s[0]] else []) + KeepNumeric(s[1..])
  }

  /** `replace` leaves a text without the character unchanged. */
  lemma {:induction false} ReplaceCharAbsent(s: string, c: char, t: string)
    requires c !in s
    ensures ReplaceChar(s, c, t) == s
    decreases |s|
  {
    if s != [] {
      ReplaceCharAbsent(s[1..], c, t);
      assert s == [s[0]] + s[1..];
    }
  }

  /** `replace` keeps every character other than the replaced one and those of
      its replacement, as often as it occurred. */
  lemma {:induction false} ReplaceCharCounts(s: string, c: char, t: string, ch: char)
    requires ch != c && ch !in t
    ensures multiset(ReplaceChar(s, c, t))[ch] == multiset(s)[ch]
    decreases |s|
  {
    if s != [] {
      ReplaceCharCounts(s[1..], c, t, ch);
      assert s == [s[0]] + s[1..];
    }
  }

  /** The filter keeps every digit and every dot, as often as it occurred. */
  lemma {:induction false} KeepNumericCounts(s: string, ch: char)
    requires Numeric(ch)
    ensures multiset(KeepNumeric(s))[ch] == multiset(s)[ch]
    decreases |s|
  {
    if s != [] {
      KeepNumericCounts(s[1..], ch);
      assert s == [s[0]] + s[1..];
    }
  }

  /** The part of `parse_price` before the conversion to float: drop the euro
      sign, strip, drop thousands dots, turn the decimal comma into a dot, keep
      only digits and dots; `None` when nothing is left. */
  function NormalizePrice(text: string): (r: Option<string>)
    ensures r.Some? ==> r.value != [] && forall i :: 0 <= i < |r.value| ==> Numeric(r.value[i])
  {
    // The program removes "€" and then "€", which is the same character.
    var noEuro := ReplaceChar(ReplaceChar(text, '€', ""), '\U{20AC}', "");
    var trimmed := Strip(noEuro);
    var decimal := ReplaceChar(ReplaceChar(trimmed, '.', ""), ',', ".");
    var filtered := KeepNumeric(decimal);
    if filtered == [] then None else Some(filtered)
  }

  /** What one character of the price text contributes to the cleaned-up text:
      a digit itself, a comma a decimal dot, anything else (dots included)
      nothing. */
  function PriceChar(c: char): string {
    if c == ',' then "." else if IsDigit(c) then [c] else []
  }

  /** The reference reading of a price text, one character at a time. */
  function PriceChars(s: string): string
    decreases |s|
  {
    if s == [] then [] else PriceChar(s[0]) + PriceChars(s[1..])
  }

  lemma {:induction false} ReplaceCharConcat(a: string, b: string, c: char, t: string)
    ensures ReplaceChar(a + b, c, t) == ReplaceChar(a, c, t) + ReplaceChar(b, c, t)
    decreases |a|
  {
    if a != [] {
      ReplaceCharConcat(a[1..], b, c, t);
      assert (a + b)[0] == a[0] && (a + b)[1..] == a[1..] + b;
      var head := if a[0] == c then t else [a[0]];
      assert ReplaceChar(a + b, c, t) == head + (ReplaceChar(a[1..], c, t) + ReplaceChar(b, c, t));
      assert ReplaceChar(a, c, t) == head + ReplaceChar(a[1..], c, t);
    } else {
      assert a + b == b;
    }
  }

  lemma {:induction false} KeepNumericConcat(a: string, b: string)
    ensures KeepNumeric(a + b) == KeepNumeric(a) + KeepNumeric(b)
    decreases |a|
  {
    if a != [] {
      KeepNumericConcat(a[1..], b);
      assert (a + b)[1..] == a[1..] + b;
    } else {
      assert a + b == b;
    }
  }

  lemma {:induction false} PriceCharsConcat(a: string, b: string)
    ensures PriceChars(a + b) == PriceChars(a) + PriceChars(b)
    decreases |a|
  {
    if a != [] {
      PriceCharsConcat(a[1..], b);
      assert (a + b)[1..] == a[1..] + b;
    } else {
      assert a + b == b;
    }
  }

  lemma {:induction false} PriceCharsTrimLeft(s: string)
    ensures PriceChars(TrimLeft(s)) == PriceChars(s)
    decreases |s|
  {
    if s != [] && IsSpace(s[0]) {
      PriceCharsTrimLeft(s[1..]);
    }
  }

  lemma {:induction false} PriceCharsTrimRight(s: string)
    ensures PriceChars(TrimRight(s)) == PriceChars(s)
    decreases |s|
  {
    if s != [] && IsSpace(s[|s| - 1]) {
      var init := s[..|s| - 1];
      PriceCharsTrimRight(init);
      PriceCharsConcat(init, [s[|s| - 1]]);
      assert s == init + [s[|s| - 1]];
    }
  }

  /** Stripping does not change what a price text contributes. */
  lemma PriceCharsStrip(s: string)
    ensures PriceChars(Strip(s)) == PriceChars(s)
  {
    PriceCharsTrimLeft(s);
    PriceCharsTrimRight(TrimLeft(s));
  }

  /** Removing euro signs does not change what a price text contributes. */
  lemma {:induction false} PriceCharsNoEuro(s: string, euro: char)
    requires !IsDigit(euro) && euro != ','
    ensures PriceChars(ReplaceChar(s, euro, "")) == PriceChars(s)
    decreases |s|
  {
    if s != [] {
      PriceCharsNoEuro(s[1..], euro);
      var head := if s[0] == euro then "" else [s[0]];
      PriceCharsConcat(head, ReplaceChar(s[1..], euro, ""));
      assert PriceChars([s[0]]) == PriceChar(s[0]);
    }
  }

  /** The dot/comma replacements followed by the filter read the text one
      character at a time. */
  lemma {:induction false} DecimalFilterByCharacter(s: string)
    ensures KeepNumeric(ReplaceChar(ReplaceChar(s, '.', ""), ',', ".")) == PriceChars(s)
    decreases |s|
  {
    if s != [] {
      DecimalFilterByCharacter(s[1..]);
      var c := s[0];
      var head := if c == '.' then "" else [c];
      var rest := ReplaceChar(s[1..], '.', "");
      assert ReplaceChar(s, '.', "") == head + rest;
      ReplaceCharConcat(head, rest, ',', ".");
      var head2 := ReplaceChar(head, ',', ".");
      KeepNumericConcat(head2, ReplaceChar(rest, ',', "."));
      if c == ',' {
        assert head2 == ".";
      } else if c != '.' {
        assert head2 == [c];
      }
      assert KeepNumeric(head2) == PriceChar(c);
    }
  }

  /** The price clean-up agrees with the character-by-character reading: it is
      `None` exactly when no digit or comma occurs, and otherwise the digits in
      order with each comma turned into a dot. */
  lemma NormalizePriceByCharacter(text: string)
    ensures NormalizePrice(text) == if PriceChars(text) == [] then None else Some(PriceChars(text))
  {
    var once := ReplaceChar(text, '€', "");
    var noEuro := ReplaceChar(once, '\U{20AC}', "");
    PriceCharsNoEuro(text, '€');
    PriceCharsNoEuro(once, '\U{20AC}');
    PriceCharsStrip(noEuro);
    DecimalFilterByCharacter(Strip(noEuro));
  }

  // ---------------------------------------------------------------------------
  // Search terms
  // ---------------------------------------------------------------------------

  /** The search term used when none is configured. */
  const DefaultTag: string := "decoración navidad"

  /** A usable search term: non-empty, with no whitespace at either end. */
  predicate Term(t: string) {
    t != [] && Stripped(t)
  }

  predicate AllTerms(tags: seq<string>) {
    forall i :: 0 <= i < |tags| ==> Term(tags[i])
  }

  predicate CommaFree(pieces: seq<string>) {
    forall j :: 0 <= j < |pieces| ==> ',' !in pieces[j]
  }

  /** Every piece is empty once stripped. */
  predicate AllBlank(pieces: seq<string>) {
    forall j :: 0 <= j < |pieces| ==> Strip(pieces[j]) == []
  }

  /** The stripped pieces that are not empty, in order. */
  function CleanTags(pieces: seq<string>): (tags: seq<string>)
    ensures AllTerms(tags)
    ensures CommaFree(pieces) ==> CommaFree(tags)
    ensures AllBlank(pieces) <==> tags == []
    decreases |pieces|
  {
    if pieces == [] then []
    else
      var rest := CleanTags(pieces[1..]);
      var t := Strip(pieces[0]);
      AllBlankCons(pieces);
      CommaFreeCons(pieces);
      if t == [] then rest
      else
        AllTermsCons(t, rest);
        [t] + rest
  }

  lemma AllTermsCons(t: string, rest: seq<string>)
    requires Term(t) && AllTerms(rest)
    ensures AllTerms([t] + rest)
  {
  }

  lemma AllBlankCons(pieces: seq<string>)
    requires pieces != []
    ensures AllBlank(pieces) <==> Strip(pieces[0]) == [] && AllBlank(pieces[1..])
  {
  }

  lemma CommaFreeCons(pieces: seq<string>)
    requires pieces != []
    ensures CommaFree(pieces) ==> CommaFree(pieces[1..]) && ',' !in Strip(pieces[0])
  {
    if CommaFree(pieces) {
      assert forall j :: 0 <= j < |pieces[1..]| ==> pieces[1..][j] == pieces[j + 1];
      StripNoNewChars(pieces[0], ',');
    }
  }

  /** The search terms kept from comma-free pieces: the stripped non-empty
      ones, or the default term when there are none. */
  function TagsOf(pieces: seq<string>): (tags: seq<string>)
    requires CommaFree(pieces)
    ensures |tags| >= 1
    ensures AllTerms(tags) && CommaFree(tags)
    ensures AllBlank(pieces) ==> tags == [DefaultTag]
    ensures !AllBlank(pieces) ==> tags == CleanTags(pieces)
  {
    var tags := CleanTags(pieces);
    DefaultTagClean();
    if tags == [] then [DefaultTag] else tags
  }

  /** The search terms: the comma-separated pieces of the setting, stripped,
      empty ones dropped; the default term when none is left. */
  function ParseTags(setting: string): (tags: seq<string>)
    ensures |tags| >= 1
    ensures AllTerms(tags) && CommaFree(tags)
  {
    TagsOf(Split(setting, ','))
  }

  lemma DefaultTagClean()
    ensures Term(DefaultTag) && ',' !in DefaultTag
  {
  }

  /** Non-empty, stripped, comma-free terms written as a comma-separated
      setting are read back unchanged. */
  lemma ParseTagsRoundTrip(tags: seq<string>)
    requires |tags| >= 1
    requires AllTerms(tags) && CommaFree(tags)
    ensures ParseTags(Join(tags, ",")) == tags
  {
    SplitJoin(tags, ',');
    assert Split(Join(tags, ","), ',') == tags;
    CleanTagsOfClean(tags);
  }

  /** A piece that is already clean is kept as it is, in front of the rest. */
  lemma CleanTagsKeepsClean(t: string, rest: seq<string>)
    requires Term(t)
    ensures CleanTags([t] + rest) == [t] + CleanTags(rest)
  {
  }

  /** Terms that are already non-empty and stripped are all kept, in order. */
  lemma {:induction false} CleanTagsOfClean(tags: seq<string>)
    requires AllTerms(tags)
    ensures CleanTags(tags) == tags
    decreases |tags|
  {
    if tags != [] {
      CleanTagsOfClean(tags[1..]);
      CleanTagsKeepsClean(tags[0], tags[1..]);
      assert tags == [tags[0]] + tags[1..];
    }
  }

  /** A single piece is kept, stripped, exactly when it is not blank. */
  lemma CleanTagsOne(p: string)
    ensures CleanTags([p]) == Kept(p)
  {
    assert [p][1..] == [];
  }

  lemma CleanTagsCons(pieces: seq<string>)
    requires pieces != []
    ensures CleanTags(pieces) == Kept(pieces[0]) + CleanTags(pieces[1..])
  {
    if Strip(pieces[0]) == [] {
      assert CleanTags(pieces) == CleanTags(pieces[1..]);
    } else {
      assert CleanTags(pieces) == [Strip(pieces[0])] + CleanTags(pieces[1..]);
    }
  }

  /** What one piece contributes: its stripped form, unless that is empty. */
  function Kept(p: string): seq<string> {
    if Strip(p) == [] then [] else [Strip(p)]
  }

  lemma CleanTagsConsConcat(a: seq<string>, b: seq<string>)
    requires a != []
    ensures CleanTags(a + b) == Kept(a[0]) + CleanTags(a[1..] + b)
  {
    assert (a + b)[0] == a[0];
    assert (a + b)[1..] == a[1..] + b;
    CleanTagsCons(a + b);
  }

  /** Cleaning works piece by piece: cleaning a concatenation is the
      concatenation of the cleaned parts, so the order of pieces is kept. */
  lemma {:induction false} CleanTagsConcat(a: seq<string>, b: seq<string>)
    ensures CleanTags(a + b) == CleanTags(a) + CleanTags(b)
    decreases |a|
  {
    if a != [] {
      var k, x, y := Kept(a[0]), CleanTags(a[1..]), CleanTags(b);
      assert CleanTags(a + b) == k + (x + y) by {
        CleanTagsConcat(a[1..], b);
        CleanTagsConsConcat(a, b);
      }
      assert CleanTags(a) == k + x by {
        CleanTagsCons(a);
      }
      assert k + (x + y) == (k + x) + y;
    } else {
      assert a + b == b;
    }
  }

  /** A term is kept exactly when it is the stripped form of some non-blank
      piece. */
  lemma {:induction false} CleanTagsMembers(pieces: seq<string>, t: string)
    ensures t in CleanTags(pieces) <==>
      exists j :: 0 <= j < |pieces| && t == Strip(pieces[j]) && t != []
    decreases |pieces|
  {
    if pieces != [] {
      CleanTagsMembers(pieces[1..], t);
      if exists j :: 0 <= j < |pieces| && t == Strip(pieces[j]) && t != [] {
        var j :| 0 <= j < |pieces| && t == Strip(pieces[j]) && t != [];
        if j > 0 {
          assert pieces[1..][j - 1] == pieces[j];
        }
      }
      if exists j :: 0 <= j < |pieces[1..]| && t == Strip(pieces[1..][j]) && t != [] {
        var j :| 0 <= j < |pieces[1..]| && t == Strip(pieces[1..][j]) && t != [];
        assert pieces[j + 1] == pieces[1..][j];
      }
    }
  }

  /** The parsed setting is the default term when every comma-separated piece
      is blank, and otherwise exactly the stripped non-blank pieces. */
  lemma ParseTagsMembers(setting: string, t: string)
    ensures AllBlank(Split(setting, ',')) ==> ParseTags(setting) == [DefaultTag]
    ensures var pieces := Split(setting, ',');
      !AllBlank(pieces) ==>
        (t in ParseTags(setting) <==> exists j :: 0 <= j < |pieces| && t == Strip(pieces[j]) && t != [])
  {
    var pieces := Split(setting, ',');
    assert ParseTags(setting) == TagsOf(pieces);
    CleanTagsMembers(pieces, t);
  }
}

=== FILE: store.dfy ===
/** The JSON files behind the history and the daily ledger. Only the rule the
    program relies on is kept: a missing or unreadable file reads as the
    caller's default. */
module Store {
  import opened Records
  import Ledger

  /** What reading a JSON file can find. */
  datatype FileState<T> = Missing | Corrupt | Holds(value: T)

  /** `cargar_json`: the file's contents, or `default` when the file is missing
      or does not parse. */
  function Load<T>(f: FileState<T>, default: T): (r: T)
    ensures f.Holds? ==> r == f.value
    ensures !f.Holds? ==> r == default
  {
    match f
    case Holds(v) => v
    case _ => default
  }

  /** `append_daily_change` as it touches the file: load (empty on failure),
      append, write back. */
  function AppendToFile(f: FileState<Ledger.Daily>, today: string, c: Change): Ledger.Daily {
    Ledger.Append(Load(f, map[]), today, c)
  }

  /** Appending to a ledger file that no longer parses starts a new ledger:
      every earlier date, and anything earlier today, is lost. */
  lemma AppendToCorruptFile(today: string, c: Change)
    ensures AppendToFile(Corrupt, today, c) == map[today := [c]]
  {
    var empty: Ledger.Daily := map[];
    var f: FileState<Ledger.Daily> := Corrupt;
    assert Load(f, empty) == empty;
    assert Ledger.TodayList(empty, today) == [];
    var r := AppendToFile(f, today, c);
    assert r == Ledger.Append(empty, today, c);
    assert r.Keys == {today} && r[today] == [c];
  }

  /** Appending to a readable ledger file keeps every other date as it was. */
  lemma AppendToReadableFile(d: Ledger.Daily, today: string, c: Change)
    ensures var r := AppendToFile(Holds(d), today, c);
      && r.Keys == d.Keys + {today}
      && r[today] == Ledger.TodayList(d, today) + [c]
      && forall k :: k in d && k != today ==> r[k] == d[k]
  {
  }
}

=== FILE: text.dfy ===
/** The string operations the scraper borrows from Python: `str.isspace` and
    `str.strip()`, `str.split` on one character, `str.join`, `str.replace` of one
    character, and `str()` of a non-negative integer. */
module Text {

  /** Python's `str.isspace()`: exactly the characters `str.strip()` removes when
      it is called without an argument. */
  predicate IsSpace(c: char) {
    || ('\t' <= c <= '\r')
    || ('\U{1C}' <= c <= ' ')
    || c == '\U{85}' || c == '\U{A0}' || c == '\U{1680}'
    || ('\U{2000}' <= c <= '\U{200A}')
    || c == '\U{2028}' || c == '\U{2029}' || c == '\U{202F}' || c == '\U{205F}'
    || c == '\U{3000}'
  }

  /** A string `str.strip()` leaves alone: empty, or neither end is whitespace. */
  predicate Stripped(s: string) {
    s == [] || (!IsSpace(s[0]) && !IsSpace(s[|s| - 1]))
  }

  /** Removes the longest all-whitespace prefix. */
  function TrimLeft(s: string): (r: string)
    ensures |r| <= |s|
    ensures r == [] || !IsSpace(r[0])
    ensures s == [] || !IsSpace(s[0]) ==> r == s
  {
    if s != [] && IsSpace(s[0]) then TrimLeft(s[1..]) else s
  }

  /** Removes the longest all-whitespace suffix. */
  function TrimRight(s: string): (r: string)
    ensures |r| <= |s|
    ensures r == [] || !IsSpace(r[|r| - 1])
    ensures r != [] ==> r[0] == s[0]
    ensures s == [] || !IsSpace(s[|s| - 1]) ==> r == s
  {
    if s != [] && IsSpace(s[|s| - 1]) then TrimRight(s[..|s| - 1]) else s
  }

  /** Python's `str.strip()`: neither end of the result is whitespace, a string
      already in that form is returned unchanged. */
  function Strip(s: string): (r: string)
    ensures Stripped(r)
    ensures Stripped(s) ==> r == s
  {
    TrimRight(TrimLeft(s))
  }

  predicate AllSpace(s: string) {
    forall k :: 0 <= k < |s| ==> IsSpace(s[k])
  }

  /** `TrimLeft` removes a prefix, and only whitespace. */
  lemma {:induction false} TrimLeftSuffix(s: string)
    ensures var n := |s| - |TrimLeft(s)|;
      TrimLeft(s) == s[n..] && AllSpace(s[..n])
    decreases |s|
  {
    if s != [] && IsSpace(s[0]) {
      TrimLeftSuffix(s[1..]);
      var n := |s| - |TrimLeft(s)|;
      assert s[1..][n - 1..] == s[n..];
      assert forall k :: 1 <= k < n ==> s[..n][k] == s[1..][..n - 1][k - 1];
    }
  }

  /** `TrimRight` removes a suffix, and only whitespace. */
  lemma {:induction false} TrimRightPrefix(s: string)
    ensures var n := |TrimRight(s)|;
      TrimRight(s) == s[..n] && AllSpace(s[n..])
    decreases |s|
  {
    if s != [] && IsSpace(s[|s| - 1]) {
      var init := s[..|s| - 1];
      TrimRightPrefix(init);
      var n := |TrimRight(s)|;
      assert init[..n] == s[..n];
      assert forall k :: 0 <= k < |s| - 1 - n ==> s[n..][k] == init[n..][k];
    }
  }

  /** `str.strip()` returns a slice of its argument and cuts only whitespace
      from either end. */
  lemma StripSlice(s: string)
    ensures var i := |s| - |TrimLeft(s)|;
      var r := Strip(s);
      && i + |r| <= |s|
      && r == s[i..i + |r|]
      && AllSpace(s[..i])
      && AllSpace(s[i + |r|..])
  {
    var l := TrimLeft(s);
    var i := |s| - |l|;
    TrimLeftSuffix(s);
    TrimRightPrefix(l);
    SliceOfSuffix(s, i, l, TrimRight(l));
  }

  /** A prefix `r` of the suffix `s[i..]`, followed there only by whitespace,
      is the slice of `s` starting at `i`, followed in `s` by that whitespace. */
  lemma SliceOfSuffix(s: string, i: nat, l: string, r: string)
    requires i <= |s| && l == s[i..]
    requires |r| <= |l| && r == l[..|r|] && AllSpace(l[|r|..])
    ensures i + |r| <= |s| && r == s[i..i + |r|] && AllSpace(s[i + |r|..])
  {
    assert l[|r|..] == s[i + |r|..];
  }

  lemma {:induction false} TrimLeftSpaces(a: string, t: string)
    requires AllSpace(a)
    requires t == [] || !IsSpace(t[0])
    ensures TrimLeft(a + t) == t
    decreases |a|
  {
    if a == [] {
      assert a + t == t;
    } else {
      assert (a + t)[0] == a[0] && (a + t)[1..] == a[1..] + t;
      TrimLeftSpaces(a[1..], t);
    }
  }

  lemma {:induction false} TrimRightSpaces(t: string, b: string)
    requires AllSpace(b)
    requires t == [] || !IsSpace(t[|t| - 1])
    ensures TrimRight(t + b) == t
    decreases |b|
  {
    if b == [] {
      assert t + b == t;
    } else {
      var u := t + b;
      assert u[|u| - 1] == b[|b| - 1];
      assert u[..|u| - 1] == t + b[..|b| - 1];
      TrimRightSpaces(t, b[..|b| - 1]);
    }
  }

  /** `str.strip()` is determined by the text: whatever whitespace surrounds a
      stripped middle, stripping gives that middle back. */
  lemma StripUnique(a: string, m: string, b: string)
    requires AllSpace(a) && AllSpace(b) && Stripped(m)
    ensures Strip(a + m + b) == m
  {
    if m == [] {
      assert a + m + b == a + b + [];
      assert AllSpace(a + b) by {
        assert forall k :: |a| <= k < |a + b| ==> (a + b)[k] == b[k - |a|];
      }
      TrimLeftSpaces(a + b, []);
    } else {
      assert a + m + b == a + (m + b);
      TrimLeftSpaces(a, m + b);
      TrimRightSpaces(m, b);
    }
  }

  lemma {:induction false} TrimLeftNoNewChars(s: string, c: char)
    requires c !in s
    ensures c !in TrimLeft(s)
    decreases |s|
  {
    if s != [] && IsSpace(s[0]) {
      assert forall i :: 0 <= i < |s[1..]| ==> s[1..][i] == s[i + 1];
      TrimLeftNoNewChars(s[1..], c);
    }
  }

  lemma {:induction false} TrimRightNoNewChars(s: string, c: char)
    requires c !in s
    ensures c !in TrimRight(s)
    decreases |s|
  {
    if s != [] && IsSpace(s[|s| - 1]) {
      var init := s[..|s| - 1];
      assert forall i :: 0 <= i < |init| ==> init[i] == s[i];
      TrimRightNoNewChars(init, c);
    }
  }

  /** Stripping never introduces a character that was not there. */
  lemma StripNoNewChars(s: string, c: char)
    requires c !in s
    ensures c !in Strip(s)
  {
    TrimLeftNoNewChars(s, c);
    TrimRightNoNewChars(TrimLeft(s), c);
  }

  /** Python's `s.split(sep)` for a one-character separator: the pieces between
      the separators, empty pieces included. */
  function Split(s: string, sep: char): (parts: seq<string>)
    ensures |parts| >= 1
    ensures forall i :: 0 <= i < |parts| ==> sep !in parts[i]
  {
    if s == [] then [[]]
    else
      var rest := Split(s[1..], sep);
      if s[0] == sep then [[]] + rest
      else [[s[0]] + rest[0]] + rest[1..]
  }

  /** Python's `sep.join(parts)`. */
  function Join(parts: seq<string>, sep: string): (s: string)
    ensures parts != [] ==> |parts[0]| <= |s| && s[..|parts[0]|] == parts[0]
  {
    if parts == [] then []
    else if |parts| == 1 then parts[0]
    else parts[0] + sep + Join(parts[1..], sep)
  }

  /** Joining the pieces of a split with the same separator gives the string back. */
  lemma {:induction false} JoinSplit(s: string, sep: char)
    ensures Join(Split(s, sep), [sep]) == s
  {
    if s != [] {
      var rest := Split(s[1..], sep);
      JoinSplit(s[1..], sep);
      if s[0] == sep {
        assert Split(s, sep) == [[]] + rest;
        assert ([[]] + rest)[1..] == rest;
      } else {
        var parts := [[s[0]] + rest[0]] + rest[1..];
        assert Split(s, sep) == parts;
        if |rest| > 1 {
          assert parts[1..] == rest[1..];
          assert Join(rest, [sep]) == rest[0] + [sep] + Join(rest[1..], [sep]);
        }
        assert s == [s[0]] + s[1..];
      }
    }
  }

  /** Splitting a prefix that holds no separator puts it in front of the first piece. */
  lemma {:induction false} SplitPrefix(a: string, t: string, sep: char)
    requires sep !in a
    ensures Split(a + t, sep) == [a + Split(t, sep)[0]] + Split(t, sep)[1..]
  {
    if a == [] {
      assert a + t == t;
      var parts := Split(t, sep);
      assert a + parts[0] == parts[0];
      assert parts == [parts[0]] + parts[1..];
    } else {
      SplitPrefix(a[1..], t, sep);
      assert (a + t)[1..] == a[1..] + t;
      assert (a + t)[0] == a[0];
      assert [a[0]] + (a[1..] + Split(t, sep)[0]) == a + Split(t, sep)[0];
    }
  }

  /** Splitting a join of separator-free pieces gives the pieces back. */
  lemma {:induction false} SplitJoin(parts: seq<string>, sep: char)
    requires |parts| >= 1
    requires forall i :: 0 <= i < |parts| ==> sep !in parts[i]
    ensures Split(Join(parts, [sep]), sep) == parts
  {
    if |parts| == 1 {
      SplitPrefix(parts[0], [], sep);
      assert parts[0] + [] == parts[0];
    } else {
      var tail := Join(parts[1..], [sep]);
      SplitJoin(parts[1..], sep);
      SplitPrefix(parts[0], [sep] + tail, sep);
      assert parts[0] + [sep] + tail == parts[0] + ([sep] + tail);
      assert ([sep] + tail)[1..] == tail;
      assert Split([sep] + tail, sep) == [[]] + Split(tail, sep);
      assert ([[]] + Split(tail, sep))[0] == [];
      assert ([[]] + Split(tail, sep))[1..] == parts[1..];
      assert parts[0] + [] == parts[0];
      assert parts == [parts[0]] + parts[1..];
    }
  }

  /** An ASCII decimal digit. */
  predicate IsDigit(c: char) {
    '0' <= c <= '9'
  }

  predicate AllDigits(s: string) {
    forall i :: 0 <= i < |s| ==> IsDigit(s[i])
  }

  function DigitChar(d: nat): (c: char)
    requires d < 10
    ensures IsDigit(c)
  {
    (48 + d) as char
  }

  function DigitValue(c: char): (d: nat)
    requires IsDigit(c)
    ensures d < 10
  {
    c as int - 48
  }

  /** Python's `str(n)` for a non-negative integer: its decimal digits, with no
      leading zero except for zero itself. */
  function NatToString(n: nat): (s: string)
    ensures |s| >= 1
    ensures AllDigits(s)
    ensures s[0] == '0' ==> n == 0
    decreases n
  {
    if n < 10 then [DigitChar(n)] else NatToString(n / 10) + [DigitChar(n % 10)]
  }

  /** The value of a string of decimal digits. */
  function ParseDecimal(s: string): nat
    requires AllDigits(s)
  {
    if s == [] then 0 else 10 * ParseDecimal(s[..|s| - 1]) + DigitValue(s[|s| - 1])
  }

  /** Reading back the decimal rendering of `n` gives `n`. */
  lemma {:induction false} ParseNatToString(n: nat)
    ensures ParseDecimal(NatToString(n)) == n
    decreases n
  {
    var s := NatToString(n);
    if n >= 10 {
      ParseNatToString(n / 10);
      assert s[..|s| - 1] == NatToString(n / 10);
    }
  }
}
